=== FILE: README.md ===
# Delivery engine of mdp-go, modelled in Dafny

This project models the delivery engine of the mailwizz directory-pickup
daemon as a sequential state machine, and proves properties of that model.
The engine has two parts:

- **Connection pool and send policy** (`core/delivery.go`):
  - each delivery server's pool of reusable SMTP connection slots;
  - slot acquisition;
  - the idle-eviction watcher;
  - server selection with lazy authentication;
  - the start-up connectivity test;
  - `forwardMessage`, which checks addresses, chooses the envelope sender, recycles connections, keeps per-slot bookkeeping and retries with linear backoff;
  - the lazily parsed and cached message headers.
- **Pickup ingestion** (`core/directorypickup.go`):
  - the claim store that keeps a file from being queued twice;
  - one scan of the pickup directory;
  - the stages a worker runs for one queued file.

Each operation is a pure function over immutable records:

- A mutex-guarded step becomes one atomic transition.
- A goroutine becomes a step of its own, or a returned value. The forward that the worker spawns is returned as `spawned`. `ProcessFile` then runs it.
- Library calls are parameters:
  - `net/mail` (RFC 5322; addresses in section 3.4) is a `MailParser`, a pair of uninterpreted total functions.
  - `smtp.PSendMail` and the clock are a `Transport`. It maps the message's retry count to the attempt's session, error and clock reading.
  - The directory listing, file contents and remove/rename failures are arguments.
- Sleeping is recorded as a backoff value in an attempt log.
- When the pool is full and every slot is busy, `getConnectionIdx` spins. This model returns a `WouldBlock` result for that case, and `forwardMessage` ends with the outcome `Blocked`.

Modules, one per component:

| module | file | models |
|---|---|---|
| `Wrappers` | wrappers.dfy | `Option` and `Result` |
| `Message` | message.dfy | `deliveryMessage`, `newDeliveryMessage`, `getFrom`, `getTo`, `getReturnPath` |
| `Pool` | pool.dfy | `dsConn`, `deliveryServer`, `getConnectionIdx`, `startConnectionsWatcher` and one watcher tick |
| `Selector` | selector.dfy | `pickDeliveryServer`, `emailTest`, `deliveryServersConnectionTests` |
| `Forward` | forward.dfy | `forwardMessage` |
| `Pickup` | pickup.dfy | `filesStore`, `readStorageDirectory`, `start`, `worker` |

`forwardMessage` recurses once per retry. The model splits each pass in two:

- `TryOnce` covers the address check and the send.
- `Resume` covers the retry decision.

`ForwardMessage` and `Resume` are mutually recursive and decrease the retries left. Each inductive lemma about forwarding is a pair that follows the same recursion.

The source's quirks are modelled as written:

- **Unreachable Return-Path fallbacks.** The Return-Path fallbacks of the sender choice (`core/delivery.go:212-218`) cannot fire. `forwardMessage` has already rejected a message with an empty From (`core/delivery.go:201`). `Forward.SenderOfEveryAttempt` proves the consequence: every attempt is sent as the username, or else the From address.
- **Auth cleared on a repeat pick.** In `pickDeliveryServer`, a repeat selection through the free-slot branch clears the server's authentication (`core/delivery.go:169-171`). The fallback branch leaves it alone, so authentication is not computed once per server. `Selector.RepeatSelectionAuth` shows both. `Forward.RepeatSelectionSendsWithoutCredentials` shows the consequence: after a second selection through the free-slot branch, every send goes without credentials.
- **Inverted auth in `emailTest`.** `emailTest` drops the credentials exactly when a username or password is configured (`core/delivery.go:301-303`). `Selector.EmailTestAuthOppositeOfSelection` shows this is the opposite of what selection does.
- **A failed rename means a second forward.** When a worker can neither remove nor rename a file (`core/directorypickup.go:70-74`), the file stays under its ".eml" name and its claim is released. The next scan claims it again, as `Pickup.UnrenamedFileIsReclaimed` shows.
- **Tests run on copies.** `deliveryServersConnectionTests` ranges over copies of the servers, so the authentication that `emailTest` sets never reaches the configured servers. `Selector.ConnectionTests` therefore returns only the fatal verdict.

## Model

| member | source | states |
|---|---|---|
| `Message.NewDeliveryMessage` | core/delivery.go:375-386 | A new message has retry count 0 and all three address caches unparsed. An empty body is never handed to the parser. A non-empty body's header is whatever the parser makes of it. |
| `Message.GetFrom` | core/delivery.go:388-405 | Only the From cache changes, and afterwards it is marked parsed. A field already parsed answers from the cache and leaves the message unchanged. A fresh field answers the address parsed from the From header, or "" when there is no parsed message or no address. |
| `Message.GetTo` | core/delivery.go:407-424 | The same promise as `Message.GetFrom`, for the To header. |
| `Message.GetReturnPath` | core/delivery.go:426-443 | The same promise as `Message.GetFrom`, for the Return-Path header. |
| `Message.GettersIdempotent` | core/delivery.go:388-443 | After the first call, each getter returns the same value every time, and a repeat call changes nothing. |
| `Message.GettersIndependent` | core/delivery.go:388-443 | Parsing one header leaves the other two caches untouched. |
| `Message.EmptyOrUnparsableBodyHasNoAddresses` | core/delivery.go:375-443 | A message built from an empty body, or from one the parser rejects, answers "" for From, To and Return-Path. |
| `Message.FromToRoundTrip` | core/delivery.go:375-424 | When the body parses and its From and To headers hold addresses, the getters return exactly those addresses, on the first call and on later ones. |
| `Pool.FirstFree` | core/delivery.go:78-82 | Returns the lowest non-busy index at or after the start, or reports that every slot from there on is busy. |
| `Pool.GetConnectionIdx` | core/delivery.go:59-90 | When some slot is not busy, returns the lowest such index and leaves the server unchanged. Otherwise, below maxConnections, appends one idle slot with ID len+1 and returns len. Otherwise the caller would block. Existing slots are kept as they were, the list grows by at most one, and the slot is not marked busy. |
| `Pool.GetConnectionIdxPreservesValid` | core/delivery.go:59-90 | Acquisition keeps the pool within maxConnections and keeps IDs counting from 1. Every existing slot keeps its ID and its busy flag. |
| `Pool.StartConnectionsWatcher` | core/delivery.go:92-96 | Afterwards the watcher is marked started and nothing else changes. Starting a second time does nothing. |
| `Pool.NewDeliveryServer` | core/delivery.go:53-57 | A new server is zero-valued: no configuration (maxConnections and connectionTimeout are 0), an empty and valid pool, and no authentication yet. Its watcher is marked started. |
| `Pool.ResetSlot` | core/delivery.go:116-125 | A reset slot keeps its ID and busy flag. Its counter and timestamp are zero and its session is closed. |
| `Pool.EvictIfIdle` | core/delivery.go:103-137 | The watcher leaves a busy slot, or one idle for less than connectionTimeout, as it was. It zeroes a stale non-busy slot's counters and closes its session. ID and busy flag are kept. Afterwards a non-busy slot holds a session only if it is not stale. |
| `Pool.WatcherTick` | core/delivery.go:98-145 | One tick changes only the slots and neither adds nor removes any. Busy slots and slots idle for less than connectionTimeout are untouched. Every stale non-busy slot is reset with its session closed. |
| `Pool.WatcherTickEvicts` | core/delivery.go:98-145 | One tick leaves busy slots untouched. It resets every non-busy slot idle for at least connectionTimeout and closes its session. Every other slot is untouched. Afterwards no non-busy slot holds a session older than the timeout, and the pool is still valid. |
| `Pool.WatcherTickIdempotent` | core/delivery.go:98-145 | A second tick at the same clock reading changes nothing. |
| `Selector.FirstServerWithFreeSlot` | core/delivery.go:155-177 | Returns the first server, in configuration order, that has a non-busy existing slot, or reports that there is none. |
| `Selector.SelectWithFreeSlot` | core/delivery.go:157-174 | The first selection builds PlainAuth("", username, password, hostname) when there are credentials. A repeat selection clears the authentication. The selection marks calledAuth and starts the watcher, and changes nothing else. |
| `Selector.SelectFallback` | core/delivery.go:179-196 | The first selection sets PlainAuth or nil according to the credentials. Later selections keep whatever is set. The selection marks calledAuth and starts the watcher. |
| `Selector.PickDeliveryServer` | core/delivery.go:149-197 | With no servers, nothing is selected. Otherwise it selects the first server with a free existing slot, or server 0 when none has one. Only the selected server changes, and only in its authentication, calledAuth (now true) and watcher flag. Its authentication is what the free-slot branch (`Selector.SelectWithFreeSlot`) or the fallback branch (`Selector.SelectFallback`) sets. |
| `Selector.PickPreservesValid` | core/delivery.go:149-197 | Selection never touches a pool, so every pool stays valid. |
| `Selector.PickIsStable` | core/delivery.go:149-197 | Selecting again over the same pools picks the same server, whose watcher is started. |
| `Selector.RepeatSelectionAuth` | core/delivery.go:155-196 | The first selection of a credentialed server sets its authentication to PlainAuth. A second selection through the free-slot branch clears the server's authentication field. Through the fallback branch it keeps it. The sends that follow are covered by `Forward.RepeatSelectionSendsWithoutCredentials`. |
| `Selector.EmailTest` | core/delivery.go:289-331 | When testing is disabled or there is no recipient, nothing happens. Otherwise one SMTP call goes to hostname:port from the username to the test recipient. Its credentials are PlainAuth exactly when there is no username and no password. Only the server's authentication changes. |
| `Selector.EmailTestAuthOppositeOfSelection` | core/delivery.go:289-303 | The test authenticates exactly when a server's first selection would not. |
| `Selector.ConnectionTests` | core/delivery.go:333-353 | Start-up is fatal exactly when some server has testing enabled and its test send failed. |
| `Forward.EnvelopeSender` | core/delivery.go:206-218 | Once From is known to be non-empty, the sender is the username, else the From address, and Return-Path is not parsed. An empty sender is possible only with no username, no return path and no From. |
| `Forward.BeginAttempt` | core/delivery.go:220-236 | Marks the chosen slot busy and changes no other slot. A slot that has reached maxConnectionMessages is first reset and its session closed. The session handed to the send is whatever the slot then holds. |
| `Forward.FinishAttempt` | core/delivery.go:250-260 | After every attempt, successful or not, the slot counts one more message and is stamped with the clock. It is no longer busy. It keeps the session returned by the send only when it had none. No other slot changes. |
| `Forward.AttemptKeepsMessageBound` | core/delivery.go:220-260 | When maxConnectionMessages is at least 1, a slot within it stays within it after one attempt, and the attempt leaves its count at 1 or more. An existing session is handed to the send only while below the bound. A recycled or empty slot keeps the session the send opened. |
| `Forward.RetryReset` | core/delivery.go:268-277 | Before a retry, the failed attempt's slot has its session closed and its counter and timestamp zeroed. It keeps its ID and busy flag. Every other slot, the configuration and the credentials are unchanged. |
| `Forward.SendOnce` | core/delivery.go:206-260 | One send on an addressed message blocks only when the pool is full and busy. Otherwise it uses the slot `getConnectionIdx` gives, and that slot is idle again afterwards. It is handed the slot's own session while the slot is below maxConnectionMessages; a recycled slot, or one without a session, hands none. Afterwards the slot keeps the session it handed over, or else the one the send returned, so the connection is there for the next message. The slot's count becomes one more than before, or 1 after a recycle, and it is stamped with the clock. Every other slot, the configuration, the credentials, the authentication flag and the watcher flag are unchanged. The attempt is logged with that slot, the expected sender, the server's credentials, the To address as the only recipient and the transport's error. The pool stays within its bound. |
| `Forward.TryOnce` | core/delivery.go:199-260 | A pass is rejected exactly when the parsed From or To is empty. Otherwise only the From and To caches of the message change, and the send keeps every promise of `Forward.SendOnce`: slot choice, session handed over and kept for reuse, recycle, count, every other slot and flag unchanged, and recipient. |
| `Forward.ForwardMessage` | core/delivery.go:199-287 | The result is rejected exactly when From or To is empty. A rejected or blocked forward leaves the server untouched and makes no attempt. Blocking happens only on a full, busy pool. Forwarding never changes the server's configuration or credentials. |
| `Forward.Resume` | core/delivery.go:262-287 | Only a rejected pass reports a rejection. Rejection and blocking make no attempt and change nothing. |
| `Forward.ForwardKeepsPool` | core/delivery.go:199-287 | A forward, including its retries, keeps the pool valid and within max(maxConnections, current size). It never removes or renumbers a slot, and leaves every slot it added idle. |
| `Forward.ResumeKeepsPool` | core/delivery.go:262-287 | The pool promise of `Forward.ForwardKeepsPool`, for the retry decision. |
| `Forward.ForwardChangesOnlySlots` | core/delivery.go:199-287 | Forwarding, retries included, changes only the server's connection slots. The configuration, the credentials, the authentication flag and the watcher flag are what they were. |
| `Forward.ResumeChangesOnlySlots` | core/delivery.go:262-287 | The same promise through the retry decision, for a pass that itself changed only the slots. |
| `Forward.RetryPolicy` | core/delivery.go:262-287 | At most RetriesLeft + 1 attempts, the k-th made at retry count r0 + k. Every attempt but the last failed and was followed by a sleep of r0 + k + 1 seconds. The retry counter counts the repeats. The result is a delivery exactly when the last attempt succeeded. It is a failure only once retries are used up, carrying the last error, and then after exactly RetriesLeft + 1 attempts. |
| `Forward.ResumeRetryPolicy` | core/delivery.go:262-287 | The retry policy of `Forward.RetryPolicy`, from a pass's outcome. |
| `Forward.RetryNeverReusesFailedSession` | core/delivery.go:264-279 | For every retry, not only the first: when the retry gets back the slot of the attempt before it, no session is handed to the send. That attempt's session was closed, so the retry opens a new one. |
| `Forward.ResumeNoReuse` | core/delivery.go:262-287 | The promise of `Forward.RetryNeverReusesFailedSession`, for the retry decision. |
| `Forward.SenderOfEveryAttempt` | core/delivery.go:206-279 | Every attempt, retries included, passes the send the same arguments: the same non-empty sender (the username, else the parsed From), the server's credentials, and the To address as the only recipient. |
| `Forward.ResumeSender` | core/delivery.go:262-287 | The promise of `Forward.SenderOfEveryAttempt` about the send's arguments, for the retry decision. |
| `Forward.DeliveredAfterFailures` | core/delivery.go:264-286 | For a message whose From and To addresses are both present, on a server with a free slot or room for one, a transport that fails n times within the retry budget and then succeeds gives a delivery after exactly n + 1 attempts. |
| `Forward.ResumeDeliveredAfterFailures` | core/delivery.go:264-286 | The same promise from a sent pass whose logged error is the transport's for its retry count, when the transport, from that retry count on, fails n times within the budget and then succeeds. |
| `Forward.GivesUpAfterRetries` | core/delivery.go:264-286 | For a fresh message whose From and To addresses are both present, on a server with a free slot or room for one and with sendRetries at least 0, an always-failing transport makes forwarding fail after exactly sendRetries + 1 attempts, with backoffs 1, 2, …, sendRetries. |
| `Forward.TwoFailuresThenSuccess` | core/delivery.go:264-286 | For a fresh message whose From and To addresses are both present, on a server with a free slot or room for one and two retries configured, fail, fail, succeed gives a delivery in three attempts with backoffs 1 and 2. |
| `Forward.RepeatSelectionSendsWithoutCredentials` | core/delivery.go:155-248 | Forwarding through a credentialed server's first selection sends every attempt with its PlainAuth. After a second selection of the same server, every attempt goes without credentials when the selection took the free-slot branch. It goes with them when it took the fallback branch. |
| `Pickup.Put` | core/directorypickup.go:107-116 | Answers true and adds the name exactly when it was unclaimed. For a claimed name it answers false and leaves the store unchanged. |
| `Pickup.Remove` | core/directorypickup.go:118-122 | Releases the name and keeps every other claim. |
| `Pickup.Count` | core/directorypickup.go:124-128 | The count is zero exactly when nothing is claimed. |
| `Pickup.PutExclusive` | core/directorypickup.go:107-116 | Of two claims of the same free name, the first wins and adds one entry. The second loses and changes nothing. |
| `Pickup.RemoveIdempotent` | core/directorypickup.go:107-122 | Releasing twice is the same as releasing once. A claim followed by a release restores the store. |
| `Pickup.ClaimAll` | core/directorypickup.go:34-46 | The batch holds, in listing order and once each, exactly the listed ".eml" names that were not already claimed, each with path Join(dir, name). The store gains exactly those names. |
| `Pickup.ReadStorageDirectory` | core/directorypickup.go:23-48 | A failed listing returns its error and changes nothing. Otherwise a server is selected. With no servers nothing is claimed. With servers, the queue is extended by exactly the batch `Pickup.ClaimAll` promises. |
| `Pickup.Start` | core/directorypickup.go:80-87 | The pipeline starts with an empty queue and an empty store, a state that satisfies the claim invariant. |
| `Pickup.EnqueueKeepsConsistent` | core/directorypickup.go:34-46 | Queueing a batch produced by a scan keeps the claim invariant: a name is claimed exactly when it is queued, no name is queued twice, and every queued file is a ".eml" file of the directory. |
| `Pickup.ScanKeepsConsistent` | core/directorypickup.go:23-48 | A scan keeps the claim invariant. |
| `Pickup.Worker` | core/directorypickup.go:50-78 | The worker takes the head of the queue and releases its claim on every path. On a read failure it spawns nothing and leaves the files alone. Otherwise it spawns the forward of the message built from the body and removes the file. When the remove fails it renames the file to name + ".deleted". When the rename fails too, nothing changes on disk. |
| `Pickup.DequeueKeepsConsistent` | core/directorypickup.go:51-74 | Taking the head of the queue and releasing its claim keeps the claim invariant. |
| `Pickup.WorkerKeepsConsistent` | core/directorypickup.go:50-78 | A worker step keeps the claim invariant. |
| `Pickup.DeletedNameIsNotEml` | core/directorypickup.go:36-72 | A name with the ".deleted" suffix never ends in ".eml". |
| `Pickup.RenamedFileNeverReclaimed` | core/directorypickup.go:34-74 | After a failed remove and a successful rename, the file exists only as name + ".deleted". No later scan, of any listing, queues or newly claims that name. |
| `Pickup.UnrenamedFileIsReclaimed` | core/directorypickup.go:34-74 | When both the remove and the rename fail, the file stays on disk under its ".eml" name and its claim is released. The next scan that lists it, with a server configured, claims and queues it again. |
| `Pickup.ProcessFile` | core/directorypickup.go:50-78 | A worker step followed by the forward it spawned. When the file was read and the last scan selected server k, the message built from the body is forwarded on server k: the outcome is that forward's, and only server k changes, to the state the forward leaves. With no forward, no server changes. The pickup and the filesystem end up as the worker leaves them. |
| `Pickup.ReleaseIndependentOfForward` | core/directorypickup.go:52-76 | The claim is released and the file removed or renamed whatever the forward does. Two transports with different outcomes leave the same pickup and filesystem. |

## Left out

- Goroutines, mutexes, tickers and the watcher's period are not modelled. Each locked section is one atomic step, and one watcher tick is a function of the clock reading. Interleavings between workers, the watcher and selection are not modelled.
- The spin on a full pool (`core/delivery.go:66-73`) is modelled as `WouldBlock`/`Blocked`. Waiting for another goroutine to free a slot is not modelled.
- Channel capacity and backpressure are not modelled: the work queue is an unbounded sequence, so a push never blocks. A worker pops only from a non-empty queue, so `Pickup.Worker` requires one queued file.
- The SMTP library (`PSendMail`, `SendMail`, `Quit`, `Close`) is not modelled. It is the `Transport` parameter, and the session handles are opaque `Client` values. `PlainAuth` is the `Auth` datatype.
- `net/mail` parsing is not modelled. It is the `MailParser` parameter.
- `encodeRFC2047`, base64 and the message that `emailTest` assembles are left out. The header order depends on Go's map iteration. The model keeps only the SMTP call's address, credentials, sender and recipients.
- Real time is left out: `time.Now` is the clock reading inside each `Attempt`, and a sleep is the `backoff` recorded in the log.
- `filepath.Join` is modelled as `dir + "/" + name`. Path cleaning (`filepath.Clean`) is not modelled.
- Go's `int64` counters and timestamps are unbounded integers here. Wrap-around needs about 2^63 messages on one slot and is not modelled.
- Log output (`pm`, `fmt`) and `log.Fatal` are not modelled. `Selector.ConnectionTests` returns the fatal verdict instead of exiting.
- The worker spawns the forward in a goroutine and only logs its result. `Pickup.Worker` returns the message, and `Pickup.ProcessFile` runs it afterwards on the selected server.
- A worker dereferences the selected server without a nil check. That crashes only when no server is configured, which start-up forbids. `Pickup.ProcessFile` skips the forward in that case.
- The message `id` is never set inside the core. It stays "".
- Pool.NewDeliveryServer: the watcher it starts would panic in Go. `time.NewTicker` panics for a non-positive duration, and a zero-valued server has connectionTimeout 0. The model only records the started flag.
- Pool.StartConnectionsWatcher: the same ticker panic hits any server with connectionTimeout <= 0 at its first selection. The model does not model the panic.
- `core/mailwizz.go`, `core/config.go`, `core/bootstrap.go` and `core/utils.go` are not part of this model: they cover the process launcher, configuration loading, process bootstrap and log gating.

=== FILE: forward.dfy ===
/**
 * deliveryServer.forwardMessage of core/delivery.go: the address check, the
 * choice of envelope sender, connection recycling, the bookkeeping after
 * each attempt, and the retry loop with linear backoff.
 *
 * The SMTP transport (smtp.PSendMail) and the clock are a `Transport`
 * parameter; sleeping is recorded as a backoff in the attempt log.
 */
module Forward {
  import opened Wrappers
  import opened Message
  import opened Pool
  import Selector

  /** The outcome of one smtp.PSendMail call, and the clock reading (seconds) taken just after it. */
  datatype Attempt = Attempt(client: Option<Client>, err: Option<string>, now: int)

  /**
   * The transport and the clock: the attempt made while the message has
   * been retried `r` times. Each attempt of one message has its own `r`.
   */
  type Transport = int -> Attempt

  /**
   * One attempt: the slot used, the arguments of the send (envelope sender,
   * credentials, recipients and the session handed over), its error, and the
   * seconds slept after it.
   */
  datatype AttemptLog = AttemptLog(
    slot: nat,
    sender: string,
    auth: Option<Auth>,
    to: seq<string>,
    reused: Option<Client>,
    err: Option<string>,
    backoff: int)

  /** How forwardMessage ends; `Blocked` stands for waiting on a full, busy pool. */
  datatype Outcome = Delivered | AddressRejected | Failed(err: string) | Blocked

  datatype Forwarded = Forwarded(server: Server, msg: DeliveryMessage, outcome: Outcome, log: seq<AttemptLog>)

  /** The From and To addresses forwardMessage checks: getFrom, then getTo on the updated message. */
  function Addresses(m: DeliveryMessage, p: MailParser): (string, string)
  {
    var (m1, from) := GetFrom(m, p);
    (from, GetTo(m1, p).1)
  }

  /** The envelope sender as it is chosen once the From address is known: the server username, else the From address. */
  function ExpectedSender(cfg: ServerConfig, from: string): string
  {
    if |cfg.username| > 0 then cfg.username else from
  }

  /**
   * The sender choice of forwardMessage: username, then the From address,
   * then the message's Return-Path, then the server's return path; the
   * Return-Path header is parsed only when the earlier choices are empty.
   */
  function EnvelopeSender(cfg: ServerConfig, m: DeliveryMessage, p: MailParser): (r: (DeliveryMessage, string))
    ensures r.0.id == m.id && r.0.body == m.body && r.0.retries == m.retries && r.0.mailMessage == m.mailMessage
    ensures r.1 == "" ==> cfg.username == "" && cfg.returnPath == "" && GetFrom(m, p).1 == ""
    ensures GetFrom(m, p).1 != "" ==>
      r.1 == ExpectedSender(cfg, GetFrom(m, p).1) && r.0.returnPath == m.returnPath
  {
    var (m1, f1) := if |cfg.username| == 0 then GetFrom(m, p) else (m, cfg.username);
    var (m2, f2) :=
      if |f1| == 0 then
        var (m', rp) := GetReturnPath(m1, p);
        (m', if |rp| > 0 then rp else f1)
      else (m1, f1);
    var f3 := if |f2| == 0 && |cfg.returnPath| > 0 then cfg.returnPath else f2;
    (m2, f3)
  }

  /**
   * Marking the slot busy before the send; a slot that has carried
   * maxConnectionMessages messages is first reset and its session closed.
   * Also returns the session handed to the send.
   */
  function BeginAttempt(s: Server, idx: nat): (r: (Server, Option<Client>))
    requires idx < |s.conns|
    ensures |r.0.conns| == |s.conns| && r.0 == s.(conns := s.conns[idx := r.0.conns[idx]])
    ensures r.0.conns[idx].inUse && r.0.conns[idx].id == s.conns[idx].id
    ensures s.conns[idx].messagesCount >= s.cfg.maxConnectionMessages ==>
      r.0.conns[idx].messagesCount == 0 && r.0.conns[idx].lastMessageTs == 0 && r.0.conns[idx].client == None
    ensures s.conns[idx].messagesCount < s.cfg.maxConnectionMessages ==>
      r.0.conns[idx] == s.conns[idx].(inUse := true)
    ensures r.1 == r.0.conns[idx].client
  {
    var c := s.conns[idx].(inUse := true);
    var c' := if c.messagesCount >= s.cfg.maxConnectionMessages then ResetSlot(c) else c;
    (s.(conns := s.conns[idx := c']), c'.client)
  }

  /**
   * The bookkeeping after an attempt, successful or not: one more message,
   * stamped `now`, the returned session kept only when the slot had none,
   * and the slot no longer busy.
   */
  function FinishAttempt(s: Server, idx: nat, c: Option<Client>, now: int): (r: Server)
    requires idx < |s.conns|
    ensures |r.conns| == |s.conns| && r == s.(conns := s.conns[idx := r.conns[idx]])
    ensures var before := s.conns[idx]; var after := r.conns[idx];
      && after.id == before.id
      && after.messagesCount == before.messagesCount + 1
      && after.lastMessageTs == now
      && !after.inUse
      && after.client == (if before.client.None? then c else before.client)
  {
    var before := s.conns[idx];
    var after := before.(messagesCount := before.messagesCount + 1, lastMessageTs := now,
                         client := if before.client.None? then c else before.client, inUse := false);
    s.(conns := s.conns[idx := after])
  }

  /**
   * One attempt keeps the recycling bound: a slot that has carried at most
   * maxConnectionMessages messages still has after the attempt, and its
   * session is handed to the send only while below the bound; a recycled or
   * fresh slot keeps the session the send opened.
   */
  lemma AttemptKeepsMessageBound(s: Server, idx: nat, c: Option<Client>, now: int)
    requires idx < |s.conns| && 1 <= s.cfg.maxConnectionMessages
    requires s.conns[idx].messagesCount <= s.cfg.maxConnectionMessages
    ensures var (s2, cl) := BeginAttempt(s, idx);
      var after := FinishAttempt(s2, idx, c, now).conns[idx];
      && 1 <= after.messagesCount <= s.cfg.maxConnectionMessages
      && (cl.Some? ==> cl == s.conns[idx].client && s.conns[idx].messagesCount < s.cfg.maxConnectionMessages)
      && after.client == (if cl.Some? then cl else c)
      && !after.inUse && after.lastMessageTs == now
  {
  }

  /** After a failed attempt that will be retried: the slot's counters are zeroed and its session closed. */
  function RetryReset(s: Server, idx: nat): (r: Server)
    requires idx < |s.conns|
    ensures r.cfg == s.cfg && r.auth == s.auth && r.calledAuth == s.calledAuth && r.watcherStarted == s.watcherStarted
    ensures |r.conns| == |s.conns|
    ensures r.conns[idx].client == None && r.conns[idx].messagesCount == 0 && r.conns[idx].lastMessageTs == 0
    ensures r.conns[idx].id == s.conns[idx].id && r.conns[idx].inUse == s.conns[idx].inUse
    ensures forall j :: 0 <= j < |s.conns| && j != idx ==> r.conns[j] == s.conns[j]
  {
    s.(conns := s.conns[idx := ResetSlot(s.conns[idx])])
  }

  /** The first `|a|` slots keep their IDs and busy flags, and every slot added after them is idle. */
  predicate Released(a: seq<Slot>, b: seq<Slot>)
  {
    SlotsKept(a, b) && forall i :: |a| <= i < |b| ==> !b[i].inUse
  }

  /** How one pass through forwardMessage, up to the retry decision, ends. */
  datatype Step =
    | Rejected(msg: DeliveryMessage)
    | Stuck(msg: DeliveryMessage)
    | Sent(server: Server, msg: DeliveryMessage, idx: nat, entry: AttemptLog)

  /**
   * What one send promises, given the message's From and To addresses and
   * the transport's outcome `a`: the slot is the one getConnectionIdx hands
   * out; the attempt is logged with the configured sender, the server's
   * credentials, the To address and the transport's error; the slot's
   * bookkeeping is as `SlotBookkeeping` says; every other slot, the
   * configuration, the credentials and the flags are unchanged; and the pool
   * stays within its bound.
   */
  predicate SentAsExpected(s: Server, from: string, to: string, a: Attempt, r: Step)
    requires r.Sent?
  {
    && r.idx < |r.server.conns| && |s.conns| <= |r.server.conns| <= PoolBound(s)
    && GetConnectionIdx(s).Acquired? && r.idx == GetConnectionIdx(s).idx
    && OthersKept(s, r.server, r.idx)
    && r.entry.slot == r.idx && r.entry.backoff == 0
    && r.entry.sender == ExpectedSender(s.cfg, from) && r.entry.sender != ""
    && r.entry.auth == s.auth && r.entry.to == [to]
    && r.entry.err == a.err
    && SlotBookkeeping(s, a, r)
    && (Valid(s) ==> Valid(r.server) && Released(s.conns, r.server.conns))
  }

  /** Only slot `idx` of `s` may differ in `b`; every other field of the server is kept. */
  predicate OthersKept(s: Server, b: Server, idx: nat)
    requires |s.conns| <= |b.conns|
  {
    && b == s.(conns := b.conns)
    && forall j :: 0 <= j < |s.conns| && j != idx ==> b.conns[j] == s.conns[j]
  }

  /**
   * The chosen slot after a send: its own session was handed over only below
   * maxConnectionMessages; it keeps that session, or the one the send opened
   * when it had none; it has carried one more message since it was last
   * recycled, is stamped with the clock and is no longer busy.
   */
  predicate SlotBookkeeping(s: Server, a: Attempt, r: Step)
    requires r.Sent? && r.idx < |r.server.conns|
  {
    var kept := r.idx < |s.conns| && s.conns[r.idx].messagesCount < s.cfg.maxConnectionMessages;
    && r.entry.reused == (if kept then s.conns[r.idx].client else None)
    && r.server.conns[r.idx].client == (if r.entry.reused.Some? then r.entry.reused else a.client)
    && r.server.conns[r.idx].messagesCount == 1 + (if kept then s.conns[r.idx].messagesCount else 0)
    && r.server.conns[r.idx].lastMessageTs == a.now
    && !r.server.conns[r.idx].inUse
  }

  /** The bookkeeping of one acquired slot, begun and finished, meets `SentAsExpected`. */
  lemma SendStepAsExpected(s: Server, idx: nat, s1: Server, m: DeliveryMessage, sender: string, a: Attempt, r: Step)
    requires GetConnectionIdx(s) == Acquired(idx, s1) && m.from.value != ""
    requires sender == ExpectedSender(s.cfg, m.from.value)
    requires r == Sent(FinishAttempt(BeginAttempt(s1, idx).0, idx, a.client, a.now), m, idx,
                       AttemptLog(idx, sender, s1.auth, [m.to.value], BeginAttempt(s1, idx).1, a.err, 0))
    ensures r.Sent? && SentAsExpected(s, m.from.value, m.to.value, a, r)
  {
    GetConnectionIdxPreservesValid(s);
    assert idx < |s.conns| ==> s1.conns[idx] == s.conns[idx];
    assert OthersKept(s, r.server, idx) by {
      assert forall j :: 0 <= j < |s.conns| && j != idx ==> r.server.conns[j] == s1.conns[j];
    }
  }

  /**
   * One send on an addressed message: choose the sender, acquire and
   * prepare a slot, send with the transport's outcome for this retry count,
   * and update the slot.
   */
  function SendOnce(s: Server, m: DeliveryMessage, p: MailParser, t: Transport): (r: Step)
    requires m.from.parsed && m.from.value != "" && m.to.parsed && m.to.value != ""
    ensures !r.Rejected?
    ensures r.Stuck? ==> !HasFreeSlot(s.conns) && |s.conns| >= s.cfg.maxConnections
    ensures r.msg == m
    ensures r.Sent? ==> SentAsExpected(s, m.from.value, m.to.value, t(m.retries), r)
  {
    var (m3, sender) := EnvelopeSender(s.cfg, m, p);
    assert m3 == m;
    match GetConnectionIdx(s)
    case WouldBlock => Stuck(m3)
    case Acquired(idx, s1) =>
      var (s2, cl) := BeginAttempt(s1, idx);
      var a := t(m3.retries);
      var r := Sent(FinishAttempt(s2, idx, a.client, a.now), m3, idx,
                    AttemptLog(idx, sender, s1.auth, [m3.to.value], cl, a.err, 0));
      SendStepAsExpected(s, idx, s1, m3, sender, a, r);
      r
  }

  /** One pass: check From and To (rejecting the message when either is empty), then send once. */
  function TryOnce(s: Server, m: DeliveryMessage, p: MailParser, t: Transport): (r: Step)
    ensures r.Rejected? <==> Addresses(m, p).0 == "" || Addresses(m, p).1 == ""
    ensures r.Stuck? ==> !HasFreeSlot(s.conns) && |s.conns| >= s.cfg.maxConnections
    ensures !r.Rejected? ==>
      r.msg == m.(from := r.msg.from, to := r.msg.to) && r.msg.from.parsed && r.msg.to.parsed
      && r.msg.from.value == Addresses(m, p).0 && r.msg.to.value == Addresses(m, p).1
    ensures r.Sent? ==> SentAsExpected(s, Addresses(m, p).0, Addresses(m, p).1, t(m.retries), r)
  {
    var (m1, from) := GetFrom(m, p);
    if |from| == 0 then Rejected(m1)
    else
      var (m2, to) := GetTo(m1, p);
      if |to| == 0 then Rejected(m2)
      else SendOnce(s, m2, p, t)
  }

  /** The retry budget left to a message: how many more attempts may follow a failed one. */
  function RetriesLeft(cfg: ServerConfig, retries: int): nat
  {
    if retries < cfg.sendRetriesCount then cfg.sendRetriesCount - retries else 0
  }

  /**
   * forwardMessage: try once, then settle the attempt's outcome.
   */
  function ForwardMessage(s: Server, m: DeliveryMessage, p: MailParser, t: Transport): (r: Forwarded)
    ensures r.server.cfg == s.cfg && r.server.auth == s.auth
    ensures r.msg.id == m.id && r.msg.body == m.body
    ensures r.outcome == AddressRejected <==> Addresses(m, p).0 == "" || Addresses(m, p).1 == ""
    ensures r.outcome in {AddressRejected, Blocked} ==> r.server == s && r.log == []
    ensures r.outcome.Blocked? ==> !HasFreeSlot(s.conns) && |s.conns| >= s.cfg.maxConnections
    decreases RetriesLeft(s.cfg, m.retries), 1
  {
    Resume(s, TryOnce(s, m, p, t), p, t)
  }

  /**
   * What a pass leaves for the next one to work on: a `Sent` step whose slot
   * index is in range and whose server has the same configuration and credentials.
   */
  predicate StepFits(s: Server, st: Step)
  {
    st.Sent? ==>
      && st.idx < |st.server.conns| && st.server.cfg == s.cfg && st.server.auth == s.auth
      && !st.server.conns[st.idx].inUse
      && st.msg.from.parsed && st.msg.from.value != ""
      && st.msg.to.parsed && st.msg.to.value != ""
      && st.entry.slot == st.idx && st.entry.backoff == 0
  }

  /**
   * The end of a pass: a success is reported; an error with retries left
   * counts the retry, resets the slot, sleeps `retries` seconds and
   * forwards again; an error without retries left is returned.
   */
  function Resume(s: Server, st: Step, p: MailParser, t: Transport): (r: Forwarded)
    requires StepFits(s, st)
    ensures r.server.cfg == s.cfg && r.server.auth == s.auth
    ensures r.msg.id == st.msg.id && r.msg.body == st.msg.body
    ensures r.outcome == AddressRejected <==> st.Rejected?
    ensures r.outcome in {AddressRejected, Blocked} ==> r.log == [] && r.msg == st.msg
    ensures r.outcome in {AddressRejected, Blocked} ==> !st.Sent? && r.server == s
    ensures r.outcome.Blocked? ==> st.Stuck?
    decreases if st.Sent? then RetriesLeft(s.cfg, st.msg.retries) else 0, 0
  {
    match st
    case Rejected(m1) => Forwarded(s, m1, AddressRejected, [])
    case Stuck(m1) => Forwarded(s, m1, Blocked, [])
    case Sent(s3, m3, idx, e) =>
      if e.err.None? then Forwarded(s3, m3, Delivered, [e])
      else if m3.retries < s.cfg.sendRetriesCount then
        var m4 := m3.(retries := m3.retries + 1);
        var s4 := RetryReset(s3, idx);
        assert Addresses(m4, p) == (m3.from.value, m3.to.value);
        assert HasFreeSlot(s4.conns) by { assert !s4.conns[idx].inUse; }
        var rest := ForwardMessage(s4, m4, p, t);
        Forwarded(rest.server, rest.msg, rest.outcome, [e.(backoff := m4.retries)] + rest.log)
      else Forwarded(s3, m3, Failed(e.err.value), [e])
  }

  /** A failed pass with retries left continues with a forward of the reset slot and the counted retry, logging the backoff first. */
  lemma ResumeRetries(s: Server, st: Step, p: MailParser, t: Transport)
    requires StepFits(s, st) && st.Sent? && st.entry.err.Some? && st.msg.retries < s.cfg.sendRetriesCount
    ensures var m4 := st.msg.(retries := st.msg.retries + 1);
      var rest := ForwardMessage(RetryReset(st.server, st.idx), m4, p, t);
      Resume(s, st, p, t) == Forwarded(rest.server, rest.msg, rest.outcome, [st.entry.(backoff := m4.retries)] + rest.log)
  {
  }

  /** The largest pool a forward can leave behind: maxConnections, or the current size when that is already larger. */
  function PoolBound(s: Server): int
  {
    if |s.conns| < s.cfg.maxConnections then s.cfg.maxConnections else |s.conns|
  }

  /**
   * Forwarding keeps the pool valid: at most maxConnections slots, slots
   * never removed or renumbered, and every slot it touched or added left
   * not busy.
   */
  lemma {:induction false} ForwardKeepsPool(s: Server, m: DeliveryMessage, p: MailParser, t: Transport)
    requires Valid(s)
    ensures var r := ForwardMessage(s, m, p, t);
      Valid(r.server) && Released(s.conns, r.server.conns) && |r.server.conns| <= PoolBound(s)
    decreases RetriesLeft(s.cfg, m.retries), 1
  {
    ResumeKeepsPool(s, TryOnce(s, m, p, t), p, t);
  }

  lemma {:induction false} ResumeKeepsPool(s: Server, st: Step, p: MailParser, t: Transport)
    requires Valid(s) && StepFits(s, st)
    requires st.Sent? ==> Valid(st.server) && Released(s.conns, st.server.conns) && |st.server.conns| <= PoolBound(s)
    ensures var r := Resume(s, st, p, t);
      Valid(r.server) && Released(s.conns, r.server.conns) && |r.server.conns| <= PoolBound(s)
    decreases if st.Sent? then RetriesLeft(s.cfg, st.msg.retries) else 0, 0
  {
    var r := Resume(s, st, p, t);
    if st.Sent? && st.entry.err.Some? && st.msg.retries < s.cfg.sendRetriesCount {
      var s4 := RetryReset(st.server, st.idx);
      var m4 := st.msg.(retries := st.msg.retries + 1);
      RetryResetKeepsPool(s, st.server, st.idx);
      ForwardKeepsPool(s4, m4, p, t);
      var rest := ForwardMessage(s4, m4, p, t);
      assert r.server == rest.server;
      ReleasedTransitive(s.conns, s4.conns, rest.server.conns);
    } else if st.Sent? {
      assert r.server == st.server;
    } else {
      assert r.server == s;
    }
  }

  /**
   * Forwarding, retries included, changes only the server's slots: the
   * configuration, the credentials, the authentication flag and the watcher
   * flag are what they were.
   */
  lemma {:induction false} ForwardChangesOnlySlots(s: Server, m: DeliveryMessage, p: MailParser, t: Transport)
    ensures var r := ForwardMessage(s, m, p, t);
      r.server == s.(conns := r.server.conns)
    decreases RetriesLeft(s.cfg, m.retries), 1
  {
    ResumeChangesOnlySlots(s, TryOnce(s, m, p, t), p, t);
  }

  lemma {:induction false} ResumeChangesOnlySlots(s: Server, st: Step, p: MailParser, t: Transport)
    requires StepFits(s, st)
    requires st.Sent? ==> st.server == s.(conns := st.server.conns)
    ensures var r := Resume(s, st, p, t);
      r.server == s.(conns := r.server.conns)
    decreases if st.Sent? then RetriesLeft(s.cfg, st.msg.retries) else 0, 0
  {
    if st.Sent? && st.entry.err.Some? && st.msg.retries < s.cfg.sendRetriesCount {
      var s4 := RetryReset(st.server, st.idx);
      var m4 := st.msg.(retries := st.msg.retries + 1);
      ForwardChangesOnlySlots(s4, m4, p, t);
      ResumeRetries(s, st, p, t);
    }
  }

  /** Resetting a slot after a failed attempt disturbs neither the pool's validity nor its busy flags. */
  lemma RetryResetKeepsPool(s: Server, s3: Server, idx: nat)
    requires idx < |s3.conns| && s3.cfg == s.cfg
    requires Valid(s3) && Released(s.conns, s3.conns) && |s3.conns| <= PoolBound(s)
    ensures var s4 := RetryReset(s3, idx);
      Valid(s4) && Released(s.conns, s4.conns) && PoolBound(s4) <= PoolBound(s)
  {
  }

  lemma ReleasedTransitive(a: seq<Slot>, b: seq<Slot>, c: seq<Slot>)
    requires Released(a, b) && Released(b, c)
    ensures Released(a, c)
  {
  }

  /**
   * The retry policy, for a forward that starts at retry count `r0`: at
   * most RetriesLeft + 1 attempts, the k-th made at retry count r0 + k; every attempt but the last failed and
   * was followed by a sleep one second longer than the one before (1, 2, ...
   * from a fresh message); the retry counter counts the repeats; success is
   * reported exactly when the last attempt succeeded, and failure only once
   * the retries are used up, with the last attempt's error.
   */
  predicate RetryShape(cfg: ServerConfig, t: Transport, r0: int, r: Forwarded)
  {
    var n := |r.log|;
    && n <= RetriesLeft(cfg, r0) + 1
    && (forall k :: 0 <= k < n ==> r.log[k].err == t(r0 + k).err)
    && r.msg.retries == r0 + (if n > 0 then n - 1 else 0)
    && (forall k :: 0 <= k < n - 1 ==> r.log[k].err.Some? && r.log[k].backoff == r0 + k + 1)
    && (n > 0 ==> r.log[n - 1].backoff == 0)
    && (r.outcome.Delivered? <==> n > 0 && r.log[n - 1].err.None?)
    && (r.outcome.Failed? ==>
          n > 0 && r.log[n - 1].err == Some(r.outcome.err) && r.msg.retries >= cfg.sendRetriesCount)
    && (r.outcome.Failed? && r0 <= cfg.sendRetriesCount ==> n == RetriesLeft(cfg, r0) + 1)
  }

  lemma {:induction false} RetryPolicy(s: Server, m: DeliveryMessage, p: MailParser, t: Transport)
    ensures RetryShape(s.cfg, t, m.retries, ForwardMessage(s, m, p, t))
    decreases RetriesLeft(s.cfg, m.retries), 1
  {
    ResumeRetryPolicy(s, TryOnce(s, m, p, t), p, t);
  }

  lemma {:induction false} ResumeRetryPolicy(s: Server, st: Step, p: MailParser, t: Transport)
    requires StepFits(s, st)
    requires st.Sent? ==> st.entry.err == t(st.msg.retries).err
    ensures RetryShape(s.cfg, t, st.msg.retries, Resume(s, st, p, t))
    decreases if st.Sent? then RetriesLeft(s.cfg, st.msg.retries) else 0, 0
  {
    if st.Sent? && st.entry.err.Some? && st.msg.retries < s.cfg.sendRetriesCount {
      RetryPolicy(RetryReset(st.server, st.idx), st.msg.(retries := st.msg.retries + 1), p, t);
      RetriedPassShape(s, st, p, t);
    } else {
      FinalPassShape(s, st, p, t);
    }
  }

  /** A failed pass with retries left has the retry shape once the forward it retries with has it. */
  lemma RetriedPassShape(s: Server, st: Step, p: MailParser, t: Transport)
    requires StepFits(s, st) && st.Sent? && st.entry.err.Some? && st.msg.retries < s.cfg.sendRetriesCount
    requires st.entry.err == t(st.msg.retries).err
    requires RetryShape(s.cfg, t, st.msg.retries + 1,
                        ForwardMessage(RetryReset(st.server, st.idx), st.msg.(retries := st.msg.retries + 1), p, t))
    ensures RetryShape(s.cfg, t, st.msg.retries, Resume(s, st, p, t))
  {
    var m4 := st.msg.(retries := st.msg.retries + 1);
    var s4 := RetryReset(st.server, st.idx);
    var e := st.entry.(backoff := m4.retries);
    var rest := ForwardMessage(s4, m4, p, t);
    ResumeRetriesLog(s, st, p, t);
    RetrySettles(s, st, p, t);
    RetryShapeCons(s.cfg, t, st.msg.retries, e, rest, Resume(s, st, p, t));
  }

  /** The log, retry count and outcome of a retried pass, as `ResumeRetries` gives them, without the server. */
  lemma ResumeRetriesLog(s: Server, st: Step, p: MailParser, t: Transport)
    requires StepFits(s, st) && st.Sent? && st.entry.err.Some? && st.msg.retries < s.cfg.sendRetriesCount
    ensures var m4 := st.msg.(retries := st.msg.retries + 1);
      var rest := ForwardMessage(RetryReset(st.server, st.idx), m4, p, t);
      var r := Resume(s, st, p, t);
      && r.log == [st.entry.(backoff := m4.retries)] + rest.log
      && r.msg.retries == rest.msg.retries && r.outcome == rest.outcome
  {
    ResumeRetries(s, st, p, t);
  }

  /** The forward a retry starts is neither rejected (the addresses are already parsed) nor blocked (the reset slot is free). */
  lemma RetrySettles(s: Server, st: Step, p: MailParser, t: Transport)
    requires StepFits(s, st) && st.Sent?
    ensures var rest := ForwardMessage(RetryReset(st.server, st.idx), st.msg.(retries := st.msg.retries + 1), p, t);
      rest.outcome.Delivered? || rest.outcome.Failed?
  {
    var m4 := st.msg.(retries := st.msg.retries + 1);
    var s4 := RetryReset(st.server, st.idx);
    assert Addresses(m4, p) == (st.msg.from.value, st.msg.to.value);
    assert HasFreeSlot(s4.conns) by { assert !s4.conns[st.idx].inUse; }
  }

  /** A pass that ends the forward (rejected, stuck, delivered, or failed with no retries left) has the retry shape. */
  lemma FinalPassShape(s: Server, st: Step, p: MailParser, t: Transport)
    requires StepFits(s, st)
    requires st.Sent? ==> st.entry.err == t(st.msg.retries).err
    requires !(st.Sent? && st.entry.err.Some? && st.msg.retries < s.cfg.sendRetriesCount)
    ensures RetryShape(s.cfg, t, st.msg.retries, Resume(s, st, p, t))
  {
    var r := Resume(s, st, p, t);
    if st.Sent? {
      if st.entry.err.None? {
        assert r == Forwarded(st.server, st.msg, Delivered, [st.entry]);
      } else {
        assert r == Forwarded(st.server, st.msg, Failed(st.entry.err.value), [st.entry]);
      }
    } else {
      assert r.log == [] && r.msg == st.msg;
    }
  }

  /** A failed attempt with retries left, followed by a retried forward, has the retry shape. */
  lemma RetryShapeCons(cfg: ServerConfig, t: Transport, r0: int, e: AttemptLog, rest: Forwarded, r: Forwarded)
    requires r0 < cfg.sendRetriesCount
    requires e.err == t(r0).err && e.err.Some? && e.backoff == r0 + 1
    requires RetryShape(cfg, t, r0 + 1, rest)
    requires r.log == [e] + rest.log && r.msg.retries == rest.msg.retries && r.outcome == rest.outcome
    requires rest.outcome.Delivered? || rest.outcome.Failed?
    ensures RetryShape(cfg, t, r0, r)
  {
    forall k | 1 <= k < |r.log|
      ensures r.log[k].err == t(r0 + k).err
      ensures k < |r.log| - 1 ==> r.log[k].err.Some? && r.log[k].backoff == r0 + k + 1
    {
      assert r.log[k] == rest.log[k - 1];
      assert r0 + 1 + (k - 1) == r0 + k;
    }
  }

  /** Every logged attempt was sent as `sender`, with credentials `auth`, to the single recipient `to`. */
  predicate AllSentAs(log: seq<AttemptLog>, sender: string, auth: Option<Auth>, to: string)
  {
    forall k :: 0 <= k < |log| ==> log[k].sender == sender && log[k].auth == auth && log[k].to == [to]
  }

  /**
   * Every attempt, retries included, passes the send the same arguments: a
   * non-empty sender (the username, else the From address), the server's
   * credentials, and the To address as the only recipient.
   */
  lemma {:induction false} SenderOfEveryAttempt(s: Server, m: DeliveryMessage, p: MailParser, t: Transport)
    ensures AllSentAs(ForwardMessage(s, m, p, t).log, ExpectedSender(s.cfg, Addresses(m, p).0), s.auth, Addresses(m, p).1)
    ensures |ForwardMessage(s, m, p, t).log| > 0 ==> ExpectedSender(s.cfg, Addresses(m, p).0) != ""
    decreases RetriesLeft(s.cfg, m.retries), 1
  {
    var st := TryOnce(s, m, p, t);
    if !st.Rejected? {
      assert st.msg.from.value == Addresses(m, p).0 && st.msg.to.value == Addresses(m, p).1;
    }
    ResumeSender(s, st, p, t);
  }

  lemma {:induction false} ResumeSender(s: Server, st: Step, p: MailParser, t: Transport)
    requires StepFits(s, st)
    requires st.Sent? ==>
      st.entry.sender == ExpectedSender(s.cfg, st.msg.from.value)
      && st.entry.auth == s.auth && st.entry.to == [st.msg.to.value]
    ensures AllSentAs(Resume(s, st, p, t).log, ExpectedSender(s.cfg, st.msg.from.value), s.auth, st.msg.to.value)
    ensures |Resume(s, st, p, t).log| > 0 ==> ExpectedSender(s.cfg, st.msg.from.value) != ""
    decreases if st.Sent? then RetriesLeft(s.cfg, st.msg.retries) else 0, 0
  {
    var sender := ExpectedSender(s.cfg, st.msg.from.value);
    if st.Sent? && st.entry.err.Some? && st.msg.retries < s.cfg.sendRetriesCount {
      var m4 := st.msg.(retries := st.msg.retries + 1);
      var s4 := RetryReset(st.server, st.idx);
      SenderOfEveryAttempt(s4, m4, p, t);
      assert Addresses(m4, p) == (st.msg.from.value, st.msg.to.value);
      ResumeRetriesLog(s, st, p, t);
      AllSentAsCons(st.entry.(backoff := m4.retries), ForwardMessage(s4, m4, p, t).log, sender, s.auth, st.msg.to.value);
    } else if st.Sent? {
      assert Resume(s, st, p, t).log == [st.entry];
    } else {
      assert Resume(s, st, p, t).log == [];
    }
  }

  lemma AllSentAsCons(e: AttemptLog, rest: seq<AttemptLog>, sender: string, auth: Option<Auth>, to: string)
    requires e.sender == sender && e.auth == auth && e.to == [to] && AllSentAs(rest, sender, auth, to)
    ensures AllSentAs([e] + rest, sender, auth, to)
  {
    forall k | 1 <= k < |[e] + rest|
      ensures ([e] + rest)[k].sender == sender && ([e] + rest)[k].auth == auth && ([e] + rest)[k].to == [to]
    {
      assert ([e] + rest)[k] == rest[k - 1];
    }
  }

  /** The first attempt of a pass that sent is the pass's own attempt, whatever is decided after it. */
  lemma ResumeFirstAttempt(s: Server, st: Step, p: MailParser, t: Transport)
    requires StepFits(s, st) && st.Sent?
    ensures var r := Resume(s, st, p, t);
      |r.log| > 0 && r.log[0].slot == st.entry.slot && r.log[0].reused == st.entry.reused
  {
    if st.entry.err.Some? && st.msg.retries < s.cfg.sendRetriesCount {
      ResumeRetriesLog(s, st, p, t);
    }
  }

  /** Every attempt that got the previous attempt's slot back was handed no session. */
  predicate NoReuseAfterRetry(log: seq<AttemptLog>)
  {
    forall k :: 1 <= k < |log| && log[k].slot == log[k - 1].slot ==> log[k].reused == None
  }

  lemma NoReuseAfterRetryCons(e: AttemptLog, rest: seq<AttemptLog>)
    requires NoReuseAfterRetry(rest)
    requires |rest| > 0 && rest[0].slot == e.slot ==> rest[0].reused == None
    ensures NoReuseAfterRetry([e] + rest)
  {
    var log := [e] + rest;
    forall k | 1 <= k < |log| && log[k].slot == log[k - 1].slot ensures log[k].reused == None {
      assert log[k] == rest[k - 1];
      if k > 1 { assert log[k - 1] == rest[k - 2]; }
    }
  }

  /**
   * A retry never hands the send the session of the failed attempt: when
   * any retry gets the slot of the attempt before it back, that slot's
   * session was closed, so the retry opens a new one.
   */
  lemma {:induction false} RetryNeverReusesFailedSession(s: Server, m: DeliveryMessage, p: MailParser, t: Transport)
    ensures NoReuseAfterRetry(ForwardMessage(s, m, p, t).log)
    decreases RetriesLeft(s.cfg, m.retries), 1
  {
    ResumeNoReuse(s, TryOnce(s, m, p, t), p, t);
  }

  lemma {:induction false} ResumeNoReuse(s: Server, st: Step, p: MailParser, t: Transport)
    requires StepFits(s, st)
    ensures NoReuseAfterRetry(Resume(s, st, p, t).log)
    decreases if st.Sent? then RetriesLeft(s.cfg, st.msg.retries) else 0, 0
  {
    if st.Sent? && st.entry.err.Some? && st.msg.retries < s.cfg.sendRetriesCount {
      var m4 := st.msg.(retries := st.msg.retries + 1);
      var s4 := RetryReset(st.server, st.idx);
      ResumeRetriesLog(s, st, p, t);
      RetryNeverReusesFailedSession(s4, m4, p, t);
      assert Addresses(m4, p) == (st.msg.from.value, st.msg.to.value);
      assert HasFreeSlot(s4.conns) by { assert !s4.conns[st.idx].inUse; }
      var st2 := TryOnce(s4, m4, p, t);
      assert st2.Sent?;
      ResumeFirstAttempt(s4, st2, p, t);
      NoReuseAfterRetryCons(st.entry.(backoff := m4.retries), ForwardMessage(s4, m4, p, t).log);
    } else if st.Sent? {
      assert Resume(s, st, p, t).log == [st.entry];
    } else {
      assert Resume(s, st, p, t).log == [];
    }
  }

  /** True when the transport fails the attempts at retry counts `from` .. `from + n - 1` and succeeds the next. */
  predicate FailsThenSucceeds(t: Transport, from: int, n: nat)
  {
    (forall r :: from <= r < from + n ==> t(r).err.Some?) && t(from + n).err.None?
  }

  /**
   * A transport that fails `n` times within the retry budget and then
   * succeeds yields exactly n + 1 attempts and a delivery, provided the
   * addresses are present and the pool can give out a slot.
   */
  lemma {:induction false} DeliveredAfterFailures(s: Server, m: DeliveryMessage, p: MailParser, t: Transport, n: nat)
    requires Addresses(m, p).0 != "" && Addresses(m, p).1 != ""
    requires HasFreeSlot(s.conns) || |s.conns| < s.cfg.maxConnections
    requires n <= RetriesLeft(s.cfg, m.retries)
    requires FailsThenSucceeds(t, m.retries, n)
    ensures var r := ForwardMessage(s, m, p, t);
      r.outcome == Delivered && |r.log| == n + 1
    decreases n, 1
  {
    ResumeDeliveredAfterFailures(s, TryOnce(s, m, p, t), p, t, n);
  }

  lemma {:induction false} ResumeDeliveredAfterFailures(s: Server, st: Step, p: MailParser, t: Transport, n: nat)
    requires StepFits(s, st) && st.Sent?
    requires st.entry.err == t(st.msg.retries).err
    requires n <= RetriesLeft(s.cfg, st.msg.retries)
    requires FailsThenSucceeds(t, st.msg.retries, n)
    ensures var r := Resume(s, st, p, t);
      r.outcome == Delivered && |r.log| == n + 1
    decreases n, 0
  {
    if n > 0 {
      var m4 := st.msg.(retries := st.msg.retries + 1);
      var s4 := RetryReset(st.server, st.idx);
      assert !s4.conns[st.idx].inUse;
      assert Addresses(m4, p) == (st.msg.from.value, st.msg.to.value);
      assert FailsThenSucceeds(t, m4.retries, n - 1) by {
        assert m4.retries + (n - 1) == st.msg.retries + n;
      }
      DeliveredAfterFailures(s4, m4, p, t, n - 1);
      ResumeRetriesLog(s, st, p, t);
    }
  }

  /**
   * A transport that always fails, with a budget of N retries and a fresh
   * message, yields exactly N + 1 attempts, backoffs 1 .. N, and a failure.
   */
  lemma GivesUpAfterRetries(s: Server, m: DeliveryMessage, p: MailParser, t: Transport)
    requires Addresses(m, p).0 != "" && Addresses(m, p).1 != ""
    requires HasFreeSlot(s.conns) || |s.conns| < s.cfg.maxConnections
    requires 0 == m.retries <= s.cfg.sendRetriesCount
    requires forall k :: t(k).err.Some?
    ensures var r := ForwardMessage(s, m, p, t);
      && r.outcome.Failed? && |r.log| == s.cfg.sendRetriesCount + 1
      && (forall k :: 0 <= k < s.cfg.sendRetriesCount ==> r.log[k].backoff == k + 1)
  {
    RetryPolicy(s, m, p, t);
    var r := ForwardMessage(s, m, p, t);
    assert r.outcome != AddressRejected && r.outcome != Blocked;
    assert r.outcome != Delivered;
  }

  /** With sendRetries = 2, a transport failing twice and then succeeding makes exactly three attempts and delivers. */
  lemma TwoFailuresThenSuccess(s: Server, m: DeliveryMessage, p: MailParser, t: Transport)
    requires Addresses(m, p).0 != "" && Addresses(m, p).1 != ""
    requires HasFreeSlot(s.conns) || |s.conns| < s.cfg.maxConnections
    requires s.cfg.sendRetriesCount == 2 && m.retries == 0
    requires t(0).err.Some? && t(1).err.Some? && t(2).err.None?
    ensures var r := ForwardMessage(s, m, p, t);
      r.outcome == Delivered && |r.log| == 3 && r.log[0].backoff == 1 && r.log[1].backoff == 2
  {
    assert FailsThenSucceeds(t, 0, 2);
    DeliveredAfterFailures(s, m, p, t, 2);
    RetryPolicy(s, m, p, t);
  }

  /**
   * What the selection quirk means for the sends: every attempt of a forward
   * through a credentialed server's first selection carries its PlainAuth;
   * after a second selection through the free-slot branch every attempt
   * goes without credentials, and through the fallback branch with them.
   */
  lemma RepeatSelectionSendsWithoutCredentials(servers: seq<Server>, m: DeliveryMessage, p: MailParser, t: Transport)
    requires |servers| > 0
    requires forall j :: 0 <= j < |servers| ==> !servers[j].calledAuth && Selector.Credentialed(servers[j].cfg)
    ensures var r1 := Selector.PickDeliveryServer(servers);
      var k := r1.idx.value;
      var r2 := Selector.PickDeliveryServer(r1.servers);
      var first := ForwardMessage(r1.servers[k], m, p, t).log;
      var second := ForwardMessage(r2.servers[k], m, p, t).log;
      && r2.idx == r1.idx
      && (forall i :: 0 <= i < |first| ==> first[i].auth == Some(Selector.PlainAuthFor(servers[k].cfg)))
      && (forall i :: 0 <= i < |second| ==>
            second[i].auth == (if Selector.AnyFreeSlot(servers) then None else Some(Selector.PlainAuthFor(servers[k].cfg))))
  {
    var r1 := Selector.PickDeliveryServer(servers);
    var k := r1.idx.value;
    var r2 := Selector.PickDeliveryServer(r1.servers);
    Selector.RepeatSelectionAuth(servers);
    Selector.PickIsStable(servers);
    SenderOfEveryAttempt(r1.servers[k], m, p, t);
    SenderOfEveryAttempt(r2.servers[k], m, p, t);
  }
}

=== FILE: message.dfy ===
/**
 * The delivery message of core/delivery.go: a raw body whose From, To and
 * Return-Path headers are parsed lazily, at most once, and cached.
 *
 * Header parsing belongs to Go's net/mail package (RFC 5322, addresses in
 * section 3.4). It is not modelled: a `MailParser` value supplies it as two
 * uninterpreted total functions, and every operation takes it as a parameter.
 */
module Message {
  import opened Wrappers

  newtype byte = b: int | 0 <= b < 256

  /** The header block of a parsed message, by header name. */
  type Header = map<string, string>

  /** Header.Get: the value of a header, or "" when it is missing. */
  function HeaderGet(h: Header, key: string): string
  {
    if key in h then h[key] else ""
  }

  /** mail.Address: a display name and an address. */
  datatype Address = Address(name: string, address: string)

  /**
   * The two net/mail entry points the message uses: ReadMessage (None when
   * the body is not a well-formed message) and ParseAddress (None when the
   * header value is not a single address).
   */
  datatype MailParser = MailParser(
    readMessage: seq<byte> -> Option<Header>,
    parseAddress: string -> Option<Address>)

  /** One lazily parsed address field: its cached value and its parsed flag. */
  datatype CachedAddress = CachedAddress(value: string, parsed: bool)

  const Unparsed := CachedAddress("", false)

  datatype DeliveryMessage = DeliveryMessage(
    id: string,
    body: seq<byte>,
    from: CachedAddress,
    to: CachedAddress,
    returnPath: CachedAddress,
    retries: int,
    mailMessage: Option<Header>)

  /** newDeliveryMessage: only a non-empty body is handed to the parser. */
  function NewDeliveryMessage(body: seq<byte>, p: MailParser): (m: DeliveryMessage)
    ensures m.body == body && m.id == "" && m.retries == 0
    ensures m.from == m.to == m.returnPath == Unparsed
    ensures |body| == 0 ==> m.mailMessage == None
    ensures |body| > 0 ==> m.mailMessage == p.readMessage(body)
  {
    var header := if |body| > 0 then p.readMessage(body) else None;
    DeliveryMessage("", body, Unparsed, Unparsed, Unparsed, 0, header)
  }

  /**
   * The address that parsing header `key` yields: "" when there is no
   * parsed message or when the header value is not an address.
   */
  function ParsedAddress(header: Option<Header>, key: string, p: MailParser): string
  {
    match header
    case None => ""
    case Some(h) =>
      match p.parseAddress(HeaderGet(h, key))
      case None => ""
      case Some(a) => a.address
  }

  /**
   * The shared body of getFrom, getTo and getReturnPath: a parsed field
   * answers from its cache; otherwise it is marked parsed, a value already
   * present is kept, and only an empty one is filled in from the header.
   */
  function GetCached(f: CachedAddress, header: Option<Header>, key: string, p: MailParser): (r: (CachedAddress, string))
    ensures r.0.parsed && r.1 == r.0.value
    ensures f.parsed ==> r.0 == f
    ensures !f.parsed && f.value != "" ==> r.1 == f.value
    ensures !f.parsed && f.value == "" ==> r.1 == ParsedAddress(header, key, p)
  {
    if f.parsed then (f, f.value)
    else if |f.value| > 0 then (f.(parsed := true), f.value)
    else if header.None? then (f.(parsed := true), "")
    else
      match p.parseAddress(HeaderGet(header.value, key))
      case None => (f.(parsed := true), "")
      case Some(a) => (CachedAddress(a.address, true), a.address)
  }

  /** getFrom: the message with its From cache filled, and the address. */
  function GetFrom(m: DeliveryMessage, p: MailParser): (r: (DeliveryMessage, string))
    ensures r.0 == m.(from := r.0.from)
    ensures r.0.from.parsed && r.1 == r.0.from.value
    ensures m.from.parsed ==> r.0 == m
    ensures m.from == Unparsed ==> r.1 == ParsedAddress(m.mailMessage, "From", p)
  {
    var (f, v) := GetCached(m.from, m.mailMessage, "From", p);
    (m.(from := f), v)
  }

  /** getTo: the message with its To cache filled, and the address. */
  function GetTo(m: DeliveryMessage, p: MailParser): (r: (DeliveryMessage, string))
    ensures r.0 == m.(to := r.0.to)
    ensures r.0.to.parsed && r.1 == r.0.to.value
    ensures m.to.parsed ==> r.0 == m
    ensures m.to == Unparsed ==> r.1 == ParsedAddress(m.mailMessage, "To", p)
  {
    var (f, v) := GetCached(m.to, m.mailMessage, "To", p);
    (m.(to := f), v)
  }

  /** getReturnPath: the message with its Return-Path cache filled, and the address. */
  function GetReturnPath(m: DeliveryMessage, p: MailParser): (r: (DeliveryMessage, string))
    ensures r.0 == m.(returnPath := r.0.returnPath)
    ensures r.0.returnPath.parsed && r.1 == r.0.returnPath.value
    ensures m.returnPath.parsed ==> r.0 == m
    ensures m.returnPath == Unparsed ==> r.1 == ParsedAddress(m.mailMessage, "Return-Path", p)
  {
    var (f, v) := GetCached(m.returnPath, m.mailMessage, "Return-Path", p);
    (m.(returnPath := f), v)
  }

  /** Every getter answers the same on every call after the first, and the second call changes nothing. */
  lemma GettersIdempotent(m: DeliveryMessage, p: MailParser)
    ensures var (m1, v) := GetFrom(m, p); GetFrom(m1, p) == (m1, v)
    ensures var (m1, v) := GetTo(m, p); GetTo(m1, p) == (m1, v)
    ensures var (m1, v) := GetReturnPath(m, p); GetReturnPath(m1, p) == (m1, v)
  {
  }

  /** Parsing one header leaves the other two caches as they were. */
  lemma GettersIndependent(m: DeliveryMessage, p: MailParser)
    ensures GetFrom(m, p).0.to == m.to && GetFrom(m, p).0.returnPath == m.returnPath
    ensures GetTo(m, p).0.from == m.from && GetTo(m, p).0.returnPath == m.returnPath
    ensures GetReturnPath(m, p).0.from == m.from && GetReturnPath(m, p).0.to == m.to
  {
  }

  /** A message built from an empty body, or from a body the parser rejects, has no addresses. */
  lemma EmptyOrUnparsableBodyHasNoAddresses(body: seq<byte>, p: MailParser)
    requires |body| == 0 || p.readMessage(body) == None
    ensures var m := NewDeliveryMessage(body, p);
      GetFrom(m, p).1 == "" && GetTo(m, p).1 == "" && GetReturnPath(m, p).1 == ""
  {
  }

  /**
   * Round trip: when the body parses and its From and To headers hold the
   * addresses `from` and `to`, the getters of a fresh message return them,
   * on the first call and on every later one.
   */
  lemma FromToRoundTrip(body: seq<byte>, p: MailParser, h: Header, from: Address, to: Address)
    requires |body| > 0 && p.readMessage(body) == Some(h)
    requires p.parseAddress(HeaderGet(h, "From")) == Some(from)
    requires p.parseAddress(HeaderGet(h, "To")) == Some(to)
    ensures var (m1, f) := GetFrom(NewDeliveryMessage(body, p), p);
      var (m2, t) := GetTo(m1, p);
      f == from.address && t == to.address
      && GetFrom(m2, p).1 == from.address && GetTo(m2, p).1 == to.address
  {
  }
}

=== FILE: pickup.dfy ===
/**
 * The directory pickup of core/directorypickup.go: the claim store
 * (filesStore), one scan of the pickup directory (readStorageDirectory),
 * and the stages one worker runs for one queued file.
 *
 * The work channel is a sequence (pushes never block; pops need a queued
 * file), the directory listing and the filesystem calls are parameters, and
 * the forward the worker spawns is returned instead of run.
 */
module Pickup {
  import opened Wrappers
  import opened Message
  import opened Pool
  import Selector
  import Forward

  const EmlSuffix := ".eml"
  const DeletedSuffix := ".deleted"

  /** strings.HasSuffix. */
  predicate HasSuffix(s: string, suffix: string)
  {
    |suffix| <= |s| && s[|s| - |suffix|..] == suffix
  }

  /** Names the scan picks up: those ending in ".eml". */
  predicate IsEml(name: string)
  {
    HasSuffix(name, EmlSuffix)
  }

  /** filepath.Join of the pickup directory and a file name. */
  function Join(dir: string, name: string): string
  {
    if dir == "" then name else dir + "/" + name
  }

  /**
   * filesStore: the names currently claimed. The Go code keeps a
   * map[string]bool whose values are always true, so a set is the same thing.
   */
  type FilesStore = set<string>

  /** put: claims `file` and answers true when it was free; answers false and changes nothing when it was claimed. */
  function Put(store: FilesStore, file: string): (r: (bool, FilesStore))
    ensures r.0 <==> file !in store
    ensures file in r.1
    ensures r.0 ==> r.1 == store + {file} && |r.1| == |store| + 1
    ensures !r.0 ==> r.1 == store
  {
    if file in store then (false, store) else (true, store + {file})
  }

  /** remove: releases `file`; every other claim is kept. */
  function Remove(store: FilesStore, file: string): (r: FilesStore)
    ensures file !in r
    ensures forall other :: other != file ==> (other in r <==> other in store)
    ensures file in store ==> |r| == |store| - 1
    ensures file !in store ==> r == store
  {
    store - {file}
  }

  /** count: the number of claimed names. */
  function Count(store: FilesStore): (n: nat)
    ensures n == 0 <==> store == {}
  {
    |store|
  }

  /** Two claims of the same free name: the first wins, the second loses and changes nothing. */
  lemma PutExclusive(store: FilesStore, file: string)
    requires file !in store
    ensures var (ok1, s1) := Put(store, file);
      var (ok2, s2) := Put(s1, file);
      ok1 && !ok2 && s2 == s1 && Count(s1) == Count(store) + 1
  {
  }

  /** Releasing twice is releasing once, and a claim followed by a release restores the store. */
  lemma RemoveIdempotent(store: FilesStore, file: string)
    ensures Remove(Remove(store, file), file) == Remove(store, file)
    ensures file !in store ==> Remove(Put(store, file).1, file) == store
  {
  }

  /** A file reference on the work queue. */
  datatype EmailFile = EmailFile(path: string, name: string)

  /** directoryPickup: its configuration, the server chosen by the last scan, the work queue and the claims. */
  datatype DirectoryPickup = DirectoryPickup(
    workers: int,
    bufferSize: int,
    storageDirectory: string,
    deliveryServer: Option<nat>,
    work: seq<EmailFile>,
    store: FilesStore)

  /** The names of a batch of file references, in order. */
  function NamesOf(files: seq<EmailFile>): (r: seq<string>)
    ensures |r| == |files| && forall k :: 0 <= k < |files| ==> r[k] == files[k].name
  {
    seq(|files|, k requires 0 <= k < |files| => files[k].name)
  }

  function NameSet(files: seq<EmailFile>): set<string>
  {
    set f | f in files :: f.name
  }

  predicate DistinctNames(files: seq<EmailFile>)
  {
    forall i, j :: 0 <= i < j < |files| ==> files[i].name != files[j].name
  }

  /** `a` can be obtained from `b` by deleting elements. */
  predicate IsSubsequence(a: seq<string>, b: seq<string>)
    decreases |b|
  {
    if b == [] then a == []
    else IsSubsequence(a, b[1..]) || (a != [] && a[0] == b[0] && IsSubsequence(a[1..], b[1..]))
  }

  /** Every reference of a batch is a ".eml" file of `dir` that `store` had not claimed. */
  predicate FreshEmlFiles(dir: string, store: FilesStore, batch: seq<EmailFile>)
  {
    forall k :: 0 <= k < |batch| ==>
      batch[k].path == Join(dir, batch[k].name) && IsEml(batch[k].name) && batch[k].name !in store
  }

  /** Every listed ".eml" name that `store` had not claimed is in the batch. */
  predicate CoversListing(names: seq<string>, store: FilesStore, batch: seq<EmailFile>)
  {
    forall n :: n in names && IsEml(n) && n !in store ==> n in NameSet(batch)
  }

  /**
   * What a scan of `names` against `store` must produce: in listing order
   * and once each, exactly the ".eml" names not already claimed, each with
   * path Join(dir, name); the store gains exactly those names.
   */
  predicate ScanSpec(dir: string, names: seq<string>, store: FilesStore, batch: seq<EmailFile>, store': FilesStore)
  {
    && store' == store + NameSet(batch)
    && FreshEmlFiles(dir, store, batch)
    && CoversListing(names, store, batch)
    && DistinctNames(batch)
    && IsSubsequence(NamesOf(batch), names)
  }

  /** Skipping the first listed name (not ".eml", or already claimed) keeps the scan's promise. */
  lemma ScanSpecSkip(dir: string, names: seq<string>, store: FilesStore, batch: seq<EmailFile>, store': FilesStore)
    requires names != []
    requires !IsEml(names[0]) || names[0] in store
    requires ScanSpec(dir, names[1..], store, batch, store')
    ensures ScanSpec(dir, names, store, batch, store')
  {
    forall n | n in names && IsEml(n) && n !in store ensures n in NameSet(batch) {
      assert n != names[0];
      assert n in names[1..];
    }
  }

  /** The batch a scan builds when it claims the first listed name: that file, then the rest. */
  function TakeFirst(dir: string, names: seq<string>, rest: seq<EmailFile>): (batch: seq<EmailFile>)
    requires names != []
    ensures |batch| == |rest| + 1 && batch[0].name == names[0]
    ensures forall k :: 1 <= k < |batch| ==> batch[k] == rest[k - 1]
  {
    [EmailFile(Join(dir, names[0]), names[0])] + rest
  }

  lemma TakeFirstFresh(dir: string, names: seq<string>, store: FilesStore, rest: seq<EmailFile>)
    requires names != [] && IsEml(names[0]) && names[0] !in store
    requires FreshEmlFiles(dir, store + {names[0]}, rest)
    ensures FreshEmlFiles(dir, store, TakeFirst(dir, names, rest))
  {
  }

  lemma TakeFirstDistinct(dir: string, names: seq<string>, store: FilesStore, rest: seq<EmailFile>)
    requires names != []
    requires FreshEmlFiles(dir, store + {names[0]}, rest) && DistinctNames(rest)
    ensures DistinctNames(TakeFirst(dir, names, rest))
  {
    var batch := TakeFirst(dir, names, rest);
    forall i, j | 0 <= i < j < |batch| ensures batch[i].name != batch[j].name {
      if i > 0 { assert batch[i] == rest[i - 1]; }
    }
  }

  lemma TakeFirstNames(dir: string, names: seq<string>, store: FilesStore, rest: seq<EmailFile>, store': FilesStore)
    requires names != []
    requires store' == store + {names[0]} + NameSet(rest)
    requires CoversListing(names[1..], store + {names[0]}, rest)
    requires IsSubsequence(NamesOf(rest), names[1..])
    ensures var batch := TakeFirst(dir, names, rest);
      store' == store + NameSet(batch) && CoversListing(names, store, batch) && IsSubsequence(NamesOf(batch), names)
  {
    var batch := TakeFirst(dir, names, rest);
    assert batch == [batch[0]] + rest;
    assert NameSet(batch) == {names[0]} + NameSet(rest);
    assert NamesOf(batch)[1..] == NamesOf(rest);
    forall n | n in names && IsEml(n) && n !in store ensures n in NameSet(batch) {
      if n != names[0] { assert n in names[1..]; }
    }
  }

  /** Claiming and queueing the first listed name keeps the scan's promise. */
  lemma ScanSpecTake(dir: string, names: seq<string>, store: FilesStore, rest: seq<EmailFile>, store': FilesStore)
    requires names != [] && IsEml(names[0]) && names[0] !in store
    requires ScanSpec(dir, names[1..], store + {names[0]}, rest, store')
    ensures ScanSpec(dir, names, store, TakeFirst(dir, names, rest), store')
  {
    TakeFirstFresh(dir, names, store, rest);
    TakeFirstDistinct(dir, names, store, rest);
    TakeFirstNames(dir, names, store, rest, store');
  }

  /** The loop of readStorageDirectory: filter on the suffix, claim, and queue each claimed name. */
  function ClaimAll(dir: string, names: seq<string>, store: FilesStore): (r: (seq<EmailFile>, FilesStore))
    ensures ScanSpec(dir, names, store, r.0, r.1)
  {
    if names == [] then ([], store)
    else
      var name := names[0];
      if !IsEml(name) then
        var r := ClaimAll(dir, names[1..], store);
        ScanSpecSkip(dir, names, store, r.0, r.1);
        r
      else
        var (ok, store1) := Put(store, name);
        if !ok then
          var r := ClaimAll(dir, names[1..], store1);
          ScanSpecSkip(dir, names, store, r.0, r.1);
          r
        else
          var (rest, store2) := ClaimAll(dir, names[1..], store1);
          ScanSpecTake(dir, names, store, rest, store2);
          (TakeFirst(dir, names, rest), store2)
  }

  /** The outcome of one scan: the pickup and the servers afterwards, and the error returned. */
  datatype Scan = Scan(pickup: DirectoryPickup, servers: seq<Server>, err: Option<string>)

  /**
   * readStorageDirectory: `listing` is the outcome of ioutil.ReadDir (the
   * file names, or the error). A failed listing changes nothing; otherwise a
   * server is selected, and with none configured nothing is claimed.
   */
  function ReadStorageDirectory(d: DirectoryPickup, servers: seq<Server>, listing: Result<seq<string>>): (r: Scan)
    ensures listing.Err? ==> r == Scan(d, servers, Some(listing.error))
    ensures listing.Ok? ==> r.err == None
    ensures listing.Ok? ==>
      var picked := Selector.PickDeliveryServer(servers);
      r.servers == picked.servers && r.pickup.deliveryServer == picked.idx
    ensures listing.Ok? && servers == [] ==> r.pickup == d.(deliveryServer := None)
    ensures listing.Ok? && servers != [] ==>
      && r.pickup == d.(deliveryServer := r.pickup.deliveryServer, work := r.pickup.work, store := r.pickup.store)
      && |d.work| <= |r.pickup.work| && r.pickup.work[..|d.work|] == d.work
      && ScanSpec(d.storageDirectory, listing.value, d.store, r.pickup.work[|d.work|..], r.pickup.store)
  {
    match listing
    case Err(e) => Scan(d, servers, Some(e))
    case Ok(names) =>
      var picked := Selector.PickDeliveryServer(servers);
      var d1 := d.(deliveryServer := picked.idx);
      if picked.idx.None? then Scan(d1, picked.servers, None)
      else
        var (batch, store') := ClaimAll(d.storageDirectory, names, d.store);
        assert (d1.work + batch)[|d.work|..] == batch;
        Scan(d1.(work := d1.work + batch, store := store'), picked.servers, None)
  }

  /**
   * The claim invariant of the sequential pipeline: a name is claimed
   * exactly when it is queued, no name is queued twice, and every queued
   * reference is a ".eml" file of the pickup directory.
   */
  predicate Consistent(d: DirectoryPickup)
  {
    && d.store == NameSet(d.work)
    && DistinctNames(d.work)
    && forall k :: 0 <= k < |d.work| ==> d.work[k].path == Join(d.storageDirectory, d.work[k].name) && IsEml(d.work[k].name)
  }

  /** start: an empty queue and an empty claim store. */
  function Start(d: DirectoryPickup): (r: DirectoryPickup)
    ensures Consistent(r) && Count(r.store) == 0 && r.work == []
  {
    d.(work := [], store := {})
  }

  /** Queueing a batch that meets the scan's promise keeps the claim invariant. */
  lemma EnqueueKeepsConsistent(d: DirectoryPickup, names: seq<string>, batch: seq<EmailFile>, store': FilesStore)
    requires Consistent(d)
    requires ScanSpec(d.storageDirectory, names, d.store, batch, store')
    ensures Consistent(d.(work := d.work + batch, store := store'))
  {
    var w := d.work + batch;
    assert NameSet(w) == NameSet(d.work) + NameSet(batch);
    forall i, j | 0 <= i < j < |w| ensures w[i].name != w[j].name {
      if j >= |d.work| {
        assert w[j] == batch[j - |d.work|];
        if i < |d.work| {
          assert w[i] in d.work;
          assert w[i].name in d.store;
        } else {
          assert w[i] == batch[i - |d.work|];
        }
      }
    }
  }

  /** A scan keeps the claim invariant. */
  lemma ScanKeepsConsistent(d: DirectoryPickup, servers: seq<Server>, listing: Result<seq<string>>)
    requires Consistent(d)
    ensures Consistent(ReadStorageDirectory(d, servers, listing).pickup)
  {
    var r := ReadStorageDirectory(d, servers, listing);
    if listing.Ok? && servers != [] {
      var batch := r.pickup.work[|d.work|..];
      assert r.pickup.work == d.work + batch;
      EnqueueKeepsConsistent(d.(deliveryServer := r.pickup.deliveryServer), listing.value, batch, r.pickup.store);
    }
  }

  /** The filesystem: file contents by path. */
  type FileSystem = map<string, seq<byte>>

  /** What one worker leaves behind: the pickup, the filesystem, and the message whose forward it spawned, if any. */
  datatype WorkerStep = WorkerStep(pickup: DirectoryPickup, fs: FileSystem, spawned: Option<DeliveryMessage>)

  /**
   * The stages a worker runs for the file at the head of the queue: read it
   * (a path missing from `fs` cannot be read); on a read failure release the
   * claim and stop; otherwise spawn the forward of the message built from
   * the body, remove the file (or, when `removeFails`, rename it with a
   * ".deleted" suffix, unless `renameFails`), and release the claim.
   */
  function Worker(d: DirectoryPickup, fs: FileSystem, p: MailParser, removeFails: bool, renameFails: bool): (r: WorkerStep)
    requires |d.work| > 0
    ensures r.pickup == d.(work := d.work[1..], store := Remove(d.store, d.work[0].name))
    ensures d.work[0].path !in fs ==> r.fs == fs && r.spawned == None
    ensures d.work[0].path in fs ==> r.spawned == Some(NewDeliveryMessage(fs[d.work[0].path], p))
    ensures d.work[0].path in fs && !removeFails ==> r.fs == fs - {d.work[0].path}
    ensures d.work[0].path in fs && removeFails && !renameFails ==>
      r.fs == (fs - {d.work[0].path})[d.work[0].path + DeletedSuffix := fs[d.work[0].path]]
    ensures removeFails && renameFails ==> r.fs == fs
  {
    var eFile := d.work[0];
    var d1 := d.(work := d.work[1..]);
    if eFile.path !in fs then
      WorkerStep(d1.(store := Remove(d1.store, eFile.name)), fs, None)
    else
      var body := fs[eFile.path];
      var m := NewDeliveryMessage(body, p);
      var fs1 :=
        if !removeFails then fs - {eFile.path}
        else if !renameFails then (fs - {eFile.path})[eFile.path + DeletedSuffix := body]
        else fs;
      WorkerStep(d1.(store := Remove(d1.store, eFile.name)), fs1, Some(m))
  }

  /** Taking the head of the queue and releasing its claim keeps the claim invariant. */
  lemma DequeueKeepsConsistent(d: DirectoryPickup)
    requires Consistent(d) && |d.work| > 0
    ensures Consistent(d.(work := d.work[1..], store := Remove(d.store, d.work[0].name)))
  {
    TailNames(d.work);
    var rest := d.work[1..];
    forall k | 0 <= k < |rest|
      ensures rest[k].path == Join(d.storageDirectory, rest[k].name) && IsEml(rest[k].name)
    {
      assert rest[k] == d.work[k + 1];
    }
  }

  /** Dropping the head of a queue with distinct names drops exactly the head's name. */
  lemma TailNames(w: seq<EmailFile>)
    requires |w| > 0 && DistinctNames(w)
    ensures DistinctNames(w[1..]) && NameSet(w[1..]) == NameSet(w) - {w[0].name}
  {
    var rest := w[1..];
    forall i, j | 0 <= i < j < |rest| ensures rest[i].name != rest[j].name {
      assert rest[i] == w[i + 1] && rest[j] == w[j + 1];
    }
    forall f | f in rest ensures f.name != w[0].name {
      var k :| 0 <= k < |rest| && rest[k] == f;
      assert w[k + 1] == f;
    }
    assert w == [w[0]] + rest;
    assert NameSet(w) == {w[0].name} + NameSet(rest);
  }

  /** A worker step keeps the claim invariant. */
  lemma WorkerKeepsConsistent(d: DirectoryPickup, fs: FileSystem, p: MailParser, removeFails: bool, renameFails: bool)
    requires Consistent(d) && |d.work| > 0
    ensures Consistent(Worker(d, fs, p, removeFails, renameFails).pickup)
  {
    DequeueKeepsConsistent(d);
  }

  /** A name with the ".deleted" suffix never ends in ".eml". */
  lemma DeletedNameIsNotEml(name: string)
    ensures !IsEml(name + DeletedSuffix)
  {
    var s := name + DeletedSuffix;
    assert s[|s| - 1] == 'd';
  }

  /**
   * A file the worker could not remove and renamed is, from then on, the
   * file `name + ".deleted"` of the pickup directory, and no later scan ever
   * claims or queues it.
   */
  lemma RenamedFileNeverReclaimed(
    d: DirectoryPickup, fs: FileSystem, p: MailParser,
    d': DirectoryPickup, servers: seq<Server>, listing: Result<seq<string>>)
    requires Consistent(d) && |d.work| > 0 && d.work[0].path in fs
    ensures var name := d.work[0].name;
      var r := Worker(d, fs, p, true, false);
      && Join(d.storageDirectory, name + DeletedSuffix) in r.fs
      && Join(d.storageDirectory, name) !in r.fs
      && var scan := ReadStorageDirectory(d', servers, listing);
         (name + DeletedSuffix in scan.pickup.store ==> name + DeletedSuffix in d'.store)
         && forall f :: f in scan.pickup.work[|d'.work|..] ==> f.name != name + DeletedSuffix
  {
    var name := d.work[0].name;
    DeletedNameIsNotEml(name);
    assert Join(d.storageDirectory, name) + DeletedSuffix == Join(d.storageDirectory, name + DeletedSuffix);
    assert Join(d.storageDirectory, name) != Join(d.storageDirectory, name + DeletedSuffix);
  }

  /**
   * A file the worker could neither remove nor rename stays on disk under
   * its ".eml" name with its claim released, so the next scan that lists it
   * with a server configured claims and queues it again.
   */
  lemma UnrenamedFileIsReclaimed(
    d: DirectoryPickup, fs: FileSystem, p: MailParser, servers: seq<Server>, names: seq<string>)
    requires Consistent(d) && |d.work| > 0 && d.work[0].path in fs
    requires d.work[0].name in names && servers != []
    ensures var name := d.work[0].name;
      var w := Worker(d, fs, p, true, true);
      var scan := ReadStorageDirectory(w.pickup, servers, Ok(names));
      && w.spawned.Some? && w.fs == fs && Join(d.storageDirectory, name) in w.fs
      && name !in w.pickup.store
      && name in scan.pickup.store
      && exists f :: f in scan.pickup.work[|w.pickup.work|..] && f.name == name
  {
    var name := d.work[0].name;
    var w := Worker(d, fs, p, true, true);
    var scan := ReadStorageDirectory(w.pickup, servers, Ok(names));
    var batch := scan.pickup.work[|w.pickup.work|..];
    assert d.work[0] in d.work;
    assert IsEml(name);
    assert name in NameSet(batch);
    var f :| f in batch && f.name == name;
  }

  /** What processing one queued file leaves behind, with the spawned forward run on the selected server. */
  datatype Processed = Processed(pickup: DirectoryPickup, servers: seq<Server>, fs: FileSystem, outcome: Option<Forward.Outcome>)

  /**
   * One worker step followed by the forward it spawned, run on the server
   * the last scan selected. With no selected server in range the forward is
   * not run (the Go code would dereference nil, which cannot happen once a
   * server is configured).
   */
  function ProcessFile(
    d: DirectoryPickup, servers: seq<Server>, fs: FileSystem, p: MailParser, t: Forward.Transport,
    removeFails: bool, renameFails: bool): (r: Processed)
    requires |d.work| > 0
    ensures |r.servers| == |servers|
    ensures r.outcome.Some? ==> d.work[0].path in fs
    ensures r.outcome.None? ==> r.servers == servers
    ensures d.work[0].path in fs && d.deliveryServer.Some? && d.deliveryServer.value < |servers| ==>
      var k := d.deliveryServer.value;
      var f := Forward.ForwardMessage(servers[k], NewDeliveryMessage(fs[d.work[0].path], p), p, t);
      r.outcome == Some(f.outcome) && r.servers == servers[k := f.server]
    ensures r.pickup == Worker(d, fs, p, removeFails, renameFails).pickup
    ensures r.fs == Worker(d, fs, p, removeFails, renameFails).fs
  {
    var w := Worker(d, fs, p, removeFails, renameFails);
    match (w.spawned, d.deliveryServer)
    case (Some(m), Some(k)) =>
      if k < |servers| then
        var f := Forward.ForwardMessage(servers[k], m, p, t);
        Processed(w.pickup, servers[k := f.server], w.fs, Some(f.outcome))
      else Processed(w.pickup, servers, w.fs, None)
    case _ => Processed(w.pickup, servers, w.fs, None)
  }

  /**
   * The claim is released and the file removed (or renamed) whatever the
   * forward does: two transports with different outcomes leave the same
   * pickup and the same filesystem.
   */
  lemma ReleaseIndependentOfForward(
    d: DirectoryPickup, servers: seq<Server>, fs: FileSystem, p: MailParser,
    t1: Forward.Transport, t2: Forward.Transport, removeFails: bool, renameFails: bool)
    requires |d.work| > 0
    ensures var r1 := ProcessFile(d, servers, fs, p, t1, removeFails, renameFails);
      var r2 := ProcessFile(d, servers, fs, p, t2, removeFails, renameFails);
      r1.pickup == r2.pickup && r1.fs == r2.fs && d.work[0].name !in r1.pickup.store
  {
  }
}

=== FILE: pool.dfy ===
/**
 * The per-server connection pool of core/delivery.go: the dsConn slots, the
 * deliveryServer record that owns them, slot acquisition (getConnectionIdx)
 * and one tick of the idle-eviction watcher.
 *
 * Locks, the watcher goroutine and its ticker are not modelled: each
 * operation is one atomic step, and the clock is a parameter.
 */
module Pool {
  import opened Wrappers

  /** An open SMTP session handle (*smtp.Client); only its identity matters. */
  datatype Client = Client(handle: nat)

  /** smtp.PlainAuth(identity, username, password, host). */
  datatype Auth = PlainAuth(identity: string, username: string, password: string, host: string)

  /** dsConn: one reusable connection slot. `client == None` means no live session. */
  datatype Slot = Slot(id: int, client: Option<Client>, messagesCount: nat, lastMessageTs: int, inUse: bool)

  /** The configured part of a deliveryServer, as read from the configuration file. */
  datatype ServerConfig = ServerConfig(
    hostname: string,
    port: int,
    username: string,
    password: string,
    returnPath: string,
    maxConnections: int,
    maxConnectionMessages: int,
    connectionTimeout: int,     // seconds
    sendRetriesCount: int,
    testRecipientEmail: string,
    testConnection: bool)

  /** deliveryServer: its configuration plus the pool and the lazily computed state. */
  datatype Server = Server(
    cfg: ServerConfig,
    auth: Option<Auth>,
    calledAuth: bool,
    conns: seq<Slot>,
    watcherStarted: bool)

  /** A slot as getConnectionIdx appends it: the `n`-th slot, idle and without a session. */
  function NewSlot(n: int): Slot
  {
    Slot(n, None, 0, 0, false)
  }

  /** The pool never exceeds maxConnections (and stays empty when that is not positive), and slot IDs count from 1. */
  predicate Valid(s: Server)
  {
    && (|s.conns| <= s.cfg.maxConnections || s.conns == [])
    && forall i :: 0 <= i < |s.conns| ==> s.conns[i].id == i + 1
  }

  /** Same slots in the same places and with the same busy flags; only sessions and counters may differ. */
  predicate SlotsKept(a: seq<Slot>, b: seq<Slot>)
  {
    |a| <= |b| &&
    forall i :: 0 <= i < |a| ==> b[i].id == a[i].id && b[i].inUse == a[i].inUse
  }

  predicate HasFreeSlot(conns: seq<Slot>)
  {
    exists i :: 0 <= i < |conns| && !conns[i].inUse
  }

  /** The lowest index at or after `from` whose slot is not busy. */
  function FirstFree(conns: seq<Slot>, from: nat): (r: Option<nat>)
    requires from <= |conns|
    ensures r.Some? ==> from <= r.value < |conns| && !conns[r.value].inUse
    ensures r.Some? ==> forall j :: from <= j < r.value ==> conns[j].inUse
    ensures r.None? ==> forall j :: from <= j < |conns| ==> conns[j].inUse
    decreases |conns| - from
  {
    if from == |conns| then None
    else if !conns[from].inUse then Some(from)
    else FirstFree(conns, from + 1)
  }

  /** The result of getConnectionIdx. `WouldBlock` stands for the spin on a full, busy pool. */
  datatype Acquisition = Acquired(idx: nat, server: Server) | WouldBlock

  /**
   * getConnectionIdx: the lowest non-busy slot; failing that, a new slot
   * when the pool is below maxConnections; failing that, the caller waits.
   * The slot is not marked busy here.
   */
  function GetConnectionIdx(s: Server): (r: Acquisition)
    ensures r.Acquired? ==> r.idx < |r.server.conns| && !r.server.conns[r.idx].inUse
    ensures r.Acquired? ==> r.server == s.(conns := r.server.conns)
    ensures r.Acquired? ==> |s.conns| <= |r.server.conns| <= |s.conns| + 1
    ensures r.Acquired? ==> r.server.conns[..|s.conns|] == s.conns
    ensures HasFreeSlot(s.conns) ==>
      r.Acquired? && r.server == s && forall j :: 0 <= j < r.idx ==> s.conns[j].inUse
    ensures !HasFreeSlot(s.conns) && |s.conns| < s.cfg.maxConnections ==>
      r == Acquired(|s.conns|, s.(conns := s.conns + [NewSlot(|s.conns| + 1)]))
    ensures !HasFreeSlot(s.conns) && |s.conns| >= s.cfg.maxConnections ==> r == WouldBlock
  {
    var connLength := |s.conns|;
    if connLength >= s.cfg.maxConnections then
      match FirstFree(s.conns, 0)
      case Some(idx) => Acquired(idx, s)
      case None => WouldBlock
    else
      match FirstFree(s.conns, 0)
      case Some(idx) => Acquired(idx, s)
      case None => Acquired(connLength, s.(conns := s.conns + [NewSlot(connLength + 1)]))
  }

  /** Acquisition keeps the pool valid and never disturbs an existing slot. */
  lemma GetConnectionIdxPreservesValid(s: Server)
    ensures var r := GetConnectionIdx(s);
      Valid(s) && r.Acquired? ==> Valid(r.server) && SlotsKept(s.conns, r.server.conns)
  {
    var r := GetConnectionIdx(s);
    if Valid(s) && r.Acquired? && r.server != s {
      assert r.server.conns == s.conns + [NewSlot(|s.conns| + 1)];
      assert |s.conns| < s.cfg.maxConnections;
    }
  }

  /** startConnectionsWatcher: sets the started flag; a second start does nothing. */
  function StartConnectionsWatcher(s: Server): (r: Server)
    ensures r.watcherStarted
    ensures r == s.(watcherStarted := true)
    ensures s.watcherStarted ==> r == s
  {
    if s.watcherStarted then s else s.(watcherStarted := true)
  }

  /** The configuration of a zero-valued deliveryServer: every field empty, zero or false. */
  const ZeroConfig := ServerConfig("", 0, "", "", "", 0, 0, 0, 0, "", false)

  /** newDeliveryServer: a zero-valued server (no configuration, empty pool) whose watcher is started. */
  function NewDeliveryServer(): (r: Server)
    ensures Valid(r) && r.conns == [] && r.watcherStarted && !r.calledAuth && r.auth == None
    ensures r.cfg.maxConnections == 0 && r.cfg.connectionTimeout == 0 && r.cfg.hostname == ""
  {
    StartConnectionsWatcher(Server(ZeroConfig, None, false, [], false))
  }

  /** A slot with its counters zeroed and its session closed. */
  function ResetSlot(c: Slot): (r: Slot)
    ensures r.id == c.id && r.inUse == c.inUse
    ensures r.messagesCount == 0 && r.lastMessageTs == 0 && r.client == None
  {
    c.(messagesCount := 0, lastMessageTs := 0, client := None)
  }

  /** True when a slot has been idle for at least `timeout` seconds at clock reading `now`. */
  predicate Stale(c: Slot, now: int, timeout: int)
  {
    now - c.lastMessageTs >= timeout
  }

  /**
   * One slot under the watcher: only an idle, non-busy slot is reset.
   * Afterwards a non-busy slot holds a session only if it is not stale.
   */
  function EvictIfIdle(c: Slot, now: int, timeout: int): (r: Slot)
    ensures r.id == c.id && r.inUse == c.inUse
    ensures c.inUse || !Stale(c, now, timeout) ==> r == c
    ensures !c.inUse && Stale(c, now, timeout) ==> r.client == None && r.messagesCount == 0 && r.lastMessageTs == 0
    ensures !r.inUse && r.client.Some? ==> !Stale(r, now, timeout)
  {
    if c.inUse then c
    else if now - c.lastMessageTs >= timeout then ResetSlot(c)
    else c
  }

  /**
   * One tick of the watcher goroutine, at clock reading `now` (in seconds):
   * only the slots change, none is added or removed, and each is left as
   * the watcher leaves a single slot.
   */
  function WatcherTick(s: Server, now: int): (r: Server)
    ensures r == s.(conns := r.conns) && |r.conns| == |s.conns|
    ensures forall i :: 0 <= i < |s.conns| ==> r.conns[i].id == s.conns[i].id && r.conns[i].inUse == s.conns[i].inUse
    ensures forall i :: 0 <= i < |s.conns| && (s.conns[i].inUse || !Stale(s.conns[i], now, s.cfg.connectionTimeout)) ==>
      r.conns[i] == s.conns[i]
    ensures forall i :: 0 <= i < |s.conns| && !s.conns[i].inUse && Stale(s.conns[i], now, s.cfg.connectionTimeout) ==>
      r.conns[i].client == None && r.conns[i].messagesCount == 0 && r.conns[i].lastMessageTs == 0
  {
    s.(conns := seq(|s.conns|, i requires 0 <= i < |s.conns| => EvictIfIdle(s.conns[i], now, s.cfg.connectionTimeout)))
  }

  /**
   * What a tick promises: busy slots are untouched; a non-busy slot idle for
   * at least the timeout is reset and its session closed; every other slot
   * is untouched. Afterwards no non-busy slot holds a session older than the
   * timeout, and the pool is still valid.
   */
  lemma WatcherTickEvicts(s: Server, now: int)
    requires Valid(s)
    ensures var r := WatcherTick(s, now);
      && Valid(r) && SlotsKept(s.conns, r.conns)
      && (forall i :: 0 <= i < |s.conns| && s.conns[i].inUse ==> r.conns[i] == s.conns[i])
      && (forall i :: 0 <= i < |s.conns| && !s.conns[i].inUse && now - s.conns[i].lastMessageTs >= s.cfg.connectionTimeout ==>
            r.conns[i].client == None && r.conns[i].messagesCount == 0 && r.conns[i].lastMessageTs == 0)
      && (forall i :: 0 <= i < |s.conns| && !s.conns[i].inUse && now - s.conns[i].lastMessageTs < s.cfg.connectionTimeout ==>
            r.conns[i] == s.conns[i])
      && (forall i :: 0 <= i < |r.conns| && !r.conns[i].inUse && r.conns[i].client.Some? ==>
            now - r.conns[i].lastMessageTs < s.cfg.connectionTimeout)
  {
  }

  /** A second tick at the same clock reading changes nothing more. */
  lemma WatcherTickIdempotent(s: Server, now: int)
    ensures WatcherTick(WatcherTick(s, now), now) == WatcherTick(s, now)
  {
    var r := WatcherTick(s, now);
    var r2 := WatcherTick(r, now);
    assert forall i :: 0 <= i < |r.conns| ==> r2.conns[i] == r.conns[i];
    assert r2.conns == r.conns;
  }
}

=== FILE: selector.dfy ===
/**
 * Server selection and the startup connectivity test of core/delivery.go:
 * pickDeliveryServer with its lazy authentication and watcher start, the
 * emailTest guard, and deliveryServersConnectionTests.
 */
module Selector {
  import opened Wrappers
  import opened Pool

  /** A server uses authentication when it has a username or a password. */
  predicate Credentialed(cfg: ServerConfig)
  {
    |cfg.username| > 0 || |cfg.password| > 0
  }

  /** smtp.PlainAuth("", username, password, hostname). */
  function PlainAuthFor(cfg: ServerConfig): Auth
  {
    PlainAuth("", cfg.username, cfg.password, cfg.hostname)
  }

  /** The first server, at or after `from` in configuration order, that has a non-busy existing slot. */
  function FirstServerWithFreeSlot(servers: seq<Server>, from: nat): (r: Option<nat>)
    requires from <= |servers|
    ensures r.Some? ==> from <= r.value < |servers| && HasFreeSlot(servers[r.value].conns)
    ensures r.Some? ==> forall j :: from <= j < r.value ==> !HasFreeSlot(servers[j].conns)
    ensures r.None? ==> forall j :: from <= j < |servers| ==> !HasFreeSlot(servers[j].conns)
    decreases |servers| - from
  {
    if from == |servers| then None
    else if HasFreeSlot(servers[from].conns) then Some(from)
    else FirstServerWithFreeSlot(servers, from + 1)
  }

  /**
   * The free-slot branch: the first selection builds the credentials when
   * there are any; every later selection through this branch clears them.
   */
  function SelectWithFreeSlot(s: Server): (r: Server)
    ensures r == s.(auth := r.auth, calledAuth := true, watcherStarted := true)
    ensures !s.calledAuth && Credentialed(s.cfg) ==> r.auth == Some(PlainAuthFor(s.cfg))
    ensures !s.calledAuth && !Credentialed(s.cfg) ==> r.auth == s.auth
    ensures s.calledAuth ==> r.auth == None
  {
    var s1 :=
      if !s.calledAuth then
        (if Credentialed(s.cfg) then s.(auth := Some(PlainAuthFor(s.cfg))) else s).(calledAuth := true)
      else s.(auth := None);
    StartConnectionsWatcher(s1)
  }

  /**
   * The fallback branch: the first selection sets the credentials (or
   * none); later selections leave them alone.
   */
  function SelectFallback(s: Server): (r: Server)
    ensures r == s.(auth := r.auth, calledAuth := true, watcherStarted := true)
    ensures !s.calledAuth ==> r.auth == (if Credentialed(s.cfg) then Some(PlainAuthFor(s.cfg)) else None)
    ensures s.calledAuth ==> r.auth == s.auth
  {
    var s1 :=
      if !s.calledAuth then
        s.(auth := if Credentialed(s.cfg) then Some(PlainAuthFor(s.cfg)) else None, calledAuth := true)
      else s;
    StartConnectionsWatcher(s1)
  }

  /** The configured servers after a selection, and the index of the chosen one (None for nil). */
  datatype Picked = Picked(servers: seq<Server>, idx: Option<nat>)

  /** True when some configured server has a non-busy existing slot. */
  predicate AnyFreeSlot(servers: seq<Server>)
  {
    exists j :: 0 <= j < |servers| && HasFreeSlot(servers[j].conns)
  }

  /**
   * pickDeliveryServer: nil when nothing is configured; otherwise the first
   * server with a free existing slot, else server 0. Only the chosen server
   * changes, and only in its authentication and watcher state.
   */
  function PickDeliveryServer(servers: seq<Server>): (r: Picked)
    ensures |r.servers| == |servers|
    ensures r.idx.None? <==> servers == []
    ensures r.idx.None? ==> r.servers == servers
    ensures r.idx.Some? ==> r.idx.value < |servers|
    ensures r.idx.Some? && AnyFreeSlot(servers) ==>
      HasFreeSlot(servers[r.idx.value].conns) && forall j :: 0 <= j < r.idx.value ==> !HasFreeSlot(servers[j].conns)
    ensures r.idx.Some? && !AnyFreeSlot(servers) ==> r.idx.value == 0
    ensures r.idx.Some? ==> forall j :: 0 <= j < |servers| && j != r.idx.value ==> r.servers[j] == servers[j]
    ensures r.idx.Some? ==> var k := r.idx.value;
      r.servers[k] == servers[k].(auth := r.servers[k].auth, calledAuth := true, watcherStarted := true)
    ensures r.idx.Some? && AnyFreeSlot(servers) ==> r.servers[r.idx.value] == SelectWithFreeSlot(servers[r.idx.value])
    ensures r.idx.Some? && !AnyFreeSlot(servers) ==> r.servers[0] == SelectFallback(servers[0])
  {
    if |servers| == 0 then Picked(servers, None)
    else
      match FirstServerWithFreeSlot(servers, 0)
      case Some(k) => Picked(servers[k := SelectWithFreeSlot(servers[k])], Some(k))
      case None => Picked(servers[0 := SelectFallback(servers[0])], Some(0))
  }

  /** Selection keeps every pool valid, since it never touches a pool. */
  lemma PickPreservesValid(servers: seq<Server>)
    requires forall j :: 0 <= j < |servers| ==> Valid(servers[j])
    ensures var r := PickDeliveryServer(servers);
      forall j :: 0 <= j < |r.servers| ==> Valid(r.servers[j]) && r.servers[j].conns == servers[j].conns
  {
  }

  /** With the pools unchanged, selecting again chooses the same server and starts nothing new. */
  lemma PickIsStable(servers: seq<Server>)
    ensures var r1 := PickDeliveryServer(servers);
      var r2 := PickDeliveryServer(r1.servers);
      r2.idx == r1.idx && (r2.idx.Some? ==> r2.servers[r2.idx.value].watcherStarted)
  {
    var r1 := PickDeliveryServer(servers);
    if servers != [] {
      assert forall j :: 0 <= j < |servers| ==> r1.servers[j].conns == servers[j].conns;
      assert forall j :: 0 <= j < |servers| ==> HasFreeSlot(r1.servers[j].conns) == HasFreeSlot(servers[j].conns);
    }
  }

  /**
   * The first selection of a credentialed server authenticates it, but a
   * second selection through the free-slot branch sends without credentials;
   * through the fallback branch it keeps them.
   */
  lemma RepeatSelectionAuth(servers: seq<Server>)
    requires |servers| > 0
    requires forall j :: 0 <= j < |servers| ==> !servers[j].calledAuth && Credentialed(servers[j].cfg)
    ensures var r1 := PickDeliveryServer(servers);
      var k := r1.idx.value;
      var r2 := PickDeliveryServer(r1.servers);
      && r1.servers[k].auth == Some(PlainAuthFor(servers[k].cfg))
      && (AnyFreeSlot(servers) ==> r2.servers[k].auth == None)
      && (!AnyFreeSlot(servers) ==> r2.servers[k].auth == Some(PlainAuthFor(servers[k].cfg)))
  {
    var r1 := PickDeliveryServer(servers);
    PickIsStable(servers);
    assert forall j :: 0 <= j < |servers| ==> HasFreeSlot(r1.servers[j].conns) == HasFreeSlot(servers[j].conns);
    if AnyFreeSlot(servers) {
      assert AnyFreeSlot(r1.servers);
    } else {
      assert !AnyFreeSlot(r1.servers);
    }
  }

  /** The SMTP call of the connectivity test: address, credentials, sender and recipients. */
  datatype SmtpCall = SmtpCall(hostname: string, port: int, auth: Option<Auth>, from: string, to: seq<string>)

  datatype TestOutcome = TestSkipped | TestSent(call: SmtpCall, err: Option<string>)

  /** Testing is enabled when the flag is set and a recipient is configured. */
  predicate TestEnabled(cfg: ServerConfig)
  {
    cfg.testConnection && |cfg.testRecipientEmail| > 0
  }

  /**
   * emailTest: the server with the credentials it set, and the call made;
   * `sendErr` is the outcome of smtp.SendMail. The credentials are kept
   * exactly when there is no username and no password.
   */
  function EmailTest(s: Server, sendErr: Option<string>): (r: (Server, TestOutcome))
    ensures !TestEnabled(s.cfg) ==> r == (s, TestSkipped)
    ensures TestEnabled(s.cfg) ==>
      && r.0 == s.(auth := r.0.auth)
      && r.1 == TestSent(SmtpCall(s.cfg.hostname, s.cfg.port, r.0.auth, s.cfg.username, [s.cfg.testRecipientEmail]), sendErr)
      && (r.0.auth.Some? <==> !Credentialed(s.cfg))
      && (r.0.auth.Some? ==> r.0.auth.value == PlainAuthFor(s.cfg))
  {
    if !s.cfg.testConnection || |s.cfg.testRecipientEmail| == 0 then (s, TestSkipped)
    else
      var s1 := s.(auth := Some(PlainAuthFor(s.cfg)));
      var s2 := if |s.cfg.username| > 0 || |s.cfg.password| > 0 then s1.(auth := None) else s1;
      (s2, TestSent(SmtpCall(s.cfg.hostname, s.cfg.port, s2.auth, s.cfg.username, [s.cfg.testRecipientEmail]), sendErr))
  }

  /** The test authenticates exactly when a server's first selection would not. */
  lemma EmailTestAuthOppositeOfSelection(s: Server, sendErr: Option<string>)
    requires TestEnabled(s.cfg) && !s.calledAuth
    ensures EmailTest(s, sendErr).0.auth.Some? <==> SelectFallback(s).auth.None?
  {
  }

  /**
   * deliveryServersConnectionTests: every server is tested (on a copy, so
   * the configured servers are not changed), and startup is fatal exactly
   * when some enabled test failed; `errs[i]` is the outcome of server i's send.
   */
  function ConnectionTests(servers: seq<Server>, errs: seq<Option<string>>): (fatal: bool)
    requires |errs| == |servers|
    ensures fatal <==> exists i :: 0 <= i < |servers| && TestEnabled(servers[i].cfg) && errs[i].Some?
  {
    if servers == [] then false
    else
      var failedHere :=
        if !TestEnabled(servers[0].cfg) then false
        else EmailTest(servers[0], errs[0]).1.err.Some?;
      var rest := ConnectionTests(servers[1..], errs[1..]);
      assert forall i :: 1 <= i < |servers| ==> servers[i] == servers[1..][i - 1] && errs[i] == errs[1..][i - 1];
      failedHere || rest
  }
}

=== FILE: wrappers.dfy ===
/** Option and Result datatypes shared by the delivery-engine model. */
module Wrappers {

  /** A value that may be absent; stands in for Go's nil pointers. */
  datatype Option<+T> = None | Some(value: T)

  /** A value or an error message; stands in for Go's `(T, error)` pairs. */
  datatype Result<+T> = Ok(value: T) | Err(error: string)
}
